=== FILE: README.md ===
# fibdrv in Dafny

fibdrv is a Linux character device. Reading it at file position k returns
the k-th Fibonacci number in decimal. Its arithmetic is a small
sign-magnitude decimal bignum:

- `digits` holds the digits most significant first.
- `signbit` is PLUS or MINUS.
- `lastdigit` is the digit count, despite its name.

There are five operations on it:

- construction from an int;
- compare;
- add and subtract, which call each other when the signs differ;
- schoolbook multiply.

On top of the bignum, `fib_sequence` runs the fast-doubling recurrence
over the bits of k. `fib_device_lseek` clamps the file position to
[0, MAX_LENGTH], so it decides which k a `read(2)` that follows it hands
to the driver; the model covers those positions. A user-space
experiment compares two native 64-bit routines: `double_fib`, the same
doubling loop over `unsigned long long`, and `easy_fib`, a table-filling
loop.

The model is split into these modules:

- `Digits` (digits.dfy): digit sequences and their values, in two orders:
  - `Val` reads most significant first, as `digits` is stored.
  - `LVal` reads least significant first, as multiply's buffers are.
- `BigNums` (bignum.dfy): the bignum datatype and these operations:
  - int_to_bignum, initialize_bignum and copy;
  - compare;
  - add and subtract, as mutually recursive pure functions. Each returns
    the states of all three pointees, so the model shows that a
    temporarily flipped `signbit` is restored.
- `Multiply` (multiply.dfy): multiply_bignum. Its row loop is a method with
  loop invariants over the least-significant-first `res` buffer.
- `Fibonacci` (fibonacci.dfy): the Fibonacci numbers, the doubling
  identities, shifts and bit tests, and `__builtin_clz`.
- `FibDrv` (fibdrv.dfy): fib_sequence as a method whose loop keeps
  (a, b) = (F(k >> i), F((k >> i) + 1)), and fib_device_lseek.
- `Experiment` (experiment.dfy): double_fib and easy_fib, with every
  `unsigned long long` operation reduced modulo 2^64.
- `Wrappers` (wrappers.dfy): `Option`.

C's undefined behaviour is modelled as "no result" (`None`) rather than
excluded by a precondition:

- `__builtin_clz(0)`;
- a read or write past the end of `series`.

`1 << 31` in double_fib is taken to be INT_MIN, as GCC computes it. In
fib_sequence the bit test never reaches bit 31, because k <= 101.

The comment on MAX_LENGTH (fibdrv.c:18-20) says the limit is 92 because a
signed 64-bit result cannot hold more. The constant itself is 101, and the
model follows the constant. `FibDrv.SignedLimit` states both sides:
F(92) fits in ssize_t and F(93) does not. `FibDrv.DriverCapacity` shows
that every value the loop holds for k <= 101 stays below 10^49. Every sum
and product therefore fits the 100-digit buffer.

## Model

| member | source | states |
|---|---|---|
| Digits.DecimalDigits | fibdrv.c:49-58 | the digit string `snprintf("%d")` writes has no leading zero and reads back as the number |
| Digits.DecimalDigitsUnique | fibdrv.c:38-42 | a digit string without a leading zero is the only such string for its value, so a normalized bignum is determined by its value |
| Digits.ValOfReverse | fibdrv.c:239-241 | copying the least-significant-first result buffer back in reverse, most significant first, keeps the value |
| Digits.LValOfReverse | fibdrv.c:220-223 | reversing an operand's digits into multiply's least-significant-first array keeps the value |
| BigNums.IntToBigNum | fibdrv.c:49-58 | the sign is PLUS exactly when s >= 0; the digits are the decimal form of abs(s) without leading zeros; the count is their number; the value is s |
| BigNums.Zero | fibdrv.c:60-63 | initialize_bignum gives the single digit 0 with sign PLUS, a canonical zero |
| BigNums.Copy | fibdrv.c:246-251 | the count and sign are copied; at most 99 digits survive `strlcpy`; a well-formed source is copied exactly |
| BigNums.CompareDigits | fibdrv.c:204-210 | the digit scan returns PLUS iff the first string is smaller, MINUS iff it is larger, and 0 iff the values are equal |
| BigNums.CompareBigNum | fibdrv.c:188-211 | the result is one of PLUS, MINUS or 0 |
| BigNums.CompareBigNumMeaning | fibdrv.c:188-211 | on canonical operands (zero carries PLUS), the inverted convention holds: PLUS iff value(a) < value(b), MINUS iff value(a) > value(b), 0 iff they are equal |
| BigNums.CompareAntisymmetric | fibdrv.c:188-211 | swapping the operands negates the result |
| BigNums.DigitSum | fibdrv.c:96-112 | the two carry loops produce digits and a final carry whose value is the sum of the operands plus the incoming carry |
| BigNums.AddMagnitudes | fibdrv.c:94-120 | the same-sign digit sum has the value of the sum; it has the longer operand's length, plus one exactly when a final carry occurs; it keeps no leading zero |
| BigNums.AddSameSign | fibdrv.c:94-120 | the same-sign path once a is the longer operand: value(c) = value(a) + value(b); c keeps the sign; a normalized a gives a normalized c; its count is la, or la + 1 on a final carry |
| BigNums.AddBigNum | fibdrv.c:65-122 | add_bignum with its detour through subtract on mixed signs, using the corrected count for a zero difference: value(c) = value(a) + value(b); a and b are returned unchanged; normalized or canonical inputs give a normalized or canonical result |
| BigNums.DigitDiff | fibdrv.c:152-172 | the borrow loops produce digits whose value is a - b - borrow, plus 10^n times the final borrow |
| BigNums.Difference | fibdrv.c:149-174 | for a >= b, the digit loops yield max(la, lb) digits whose value is a - b |
| BigNums.LeadingZeros | fibdrv.c:175-176 | the scan stops at the first nonzero digit, or past the end when every digit is zero, and every digit before it is zero |
| BigNums.StripLeadingZeros | fibdrv.c:175-184 | the scan removes exactly the leading zeros of a nonzero result and keeps its value |
| BigNums.SubtractMagnitudesAsWritten | fibdrv.c:149-184 | the positive path as written: the value is a - b; the count matches the digits exactly when a != b; when a == b the count is 0 |
| BigNums.EqualOperandsLoseCount | fibdrv.c:175-179 | for equal operands the as-written result holds the digit 0 with count 0, which is not a well-formed bignum |
| BigNums.SubtractMagnitudes | fibdrv.c:149-184 | the positive path with the count kept at 1 for the zero result: normalized, sign PLUS, value a - b; identical to the as-written result when a != b, and differing from it only in the count when a == b |
| BigNums.SubtractBigNum | fibdrv.c:124-186 | subtract_bignum with its detours through add and the swapped call, using the corrected count for a zero difference: value(c) = value(a) - value(b); c is normalized; the operands are returned unchanged |
| BigNums.CanonicalUnique | fibdrv.c:38-42 | two canonical bignums with the same value are identical: digits, sign and count |
| BigNums.AddCommutes | fibdrv.c:65-122 | on canonical operands add_bignum(a, b) and add_bignum(b, a) give the same result |
| BigNums.AddZero | fibdrv.c:60-122 | adding the zero of initialize_bignum to a canonical bignum, on either side, gives that bignum back |
| BigNums.SubtractAsWrittenWhenUnequal | fibdrv.c:144-184 | on positive operands with different values, the result is exactly the source's: the direct path as written, or for a < b the swapped call's result with sign MINUS |
| Multiply.AddRow | fibdrv.c:226-237 | one row adds d * 10^j * num1 to the buffer; the row ends at j + la or one past it, exactly when the buffer reaches 10^(j + la); the buffer above that is zero |
| Multiply.MultiplyRows | fibdrv.c:224-238 | the buffer holds num1 * num2; k is la + lb or la + lb - 1, the former exactly when the product has la + lb digits; everything from k on is zero |
| Multiply.MultiplyBigNum | fibdrv.c:213-244 | multiply_bignum as written: the digits are the product's digits padded to k, the sign is the product of the signs, and value(c) = value(a) * value(b) |
| Multiply.MulResultNormalized | fibdrv.c:239-242 | for normalized operands the result has no leading zero iff the product is nonzero or both operands have one digit |
| Multiply.ZeroTimesTwelve | fibdrv.c:239-242 | 0 times 12 gives the digits "00" with count 2 |
| Multiply.ZeroTimesMinusFive | fibdrv.c:243 | 0 times -5 gives "0" with sign MINUS, which is normalized and equal in value to zero, yet compare_bignum ranks it below the canonical zero |
| Multiply.MultiplyNormalized | fibdrv.c:213-244 | multiply with the leading zeros of a zero product dropped: normalized, same sign and value as the product |
| Fibonacci.FibDoubling | fibdrv.c:263-269 | F(2m) = F(m)(2F(m+1) - F(m)) and F(2m+1) = F(m)^2 + F(m+1)^2 |
| Fibonacci.ShiftRightStep | fibdrv.c:260-272 | k >> i is twice k >> (i+1), plus bit i of k |
| Fibonacci.Clz32 | fibdrv.c:260 | `__builtin_clz` of the unsigned conversion has no result at 0; otherwise it places the highest set bit at 31 - clz |
| Fibonacci.FibNinetyTwo | experiment/experiment1.c:46 | the values of F(92) and F(93), the last index main uses and the last Fibonacci number below 2^64 |
| FibDrv.SignedLimit | fibdrv.c:18-21 | F(92) fits in ssize_t and F(93) does not, while MAX_LENGTH is 101 |
| FibDrv.LoopStart | fibdrv.c:260 | the first bit index `31 - __builtin_clz(k)` is missing exactly when k is 0 modulo 2^32 |
| FibDrv.LoopStartIsHighBit | fibdrv.c:260 | for 1 <= k < 2^32, the loop starts at the highest set bit of k |
| FibDrv.LoopStartInRange | fibdrv.c:260 | among the positions lseek allows, only 0 has no starting bit |
| FibDrv.FibDeviceLseek | fibdrv.c:319-340 | the stored position is always in [0, 101]; SEEK_SET with an in-range offset returns the offset; an unknown `orig` gives 0 |
| FibDrv.LseekNearest | fibdrv.c:334-337 | the clamp returns the position in [0, 101] nearest to the one the switch computed |
| FibDrv.LseekIdempotent | fibdrv.c:319-340 | from the returned position, SEEK_CUR by 0 stays there, and SEEK_SET to it returns it again |
| FibDrv.ZeroOffsetHasNoLoopStart | fibdrv.c:253-260 | seeking to 0 reaches fib_sequence(0), where `__builtin_clz(0)` has no defined result |
| FibDrv.DriverCapacity | fibdrv.c:21-29 | F(n) < 10^49 for every n up to MAX_LENGTH + 1, so products of loop values fit 100 digits |
| FibDrv.MultiplyCanonical | fibdrv.c:263-268 | multiply_bignum on the driver's positive canonical operands yields a canonical product, with count at most la + lb |
| FibDrv.TwiceMinus | fibdrv.c:263-264 | `2b - a` is canonical, at least b, and at most one digit longer than b |
| FibDrv.DoubleEven | fibdrv.c:263-265 | t1 = a(2b - a), canonical |
| FibDrv.DoubleOdd | fibdrv.c:267-269 | t2 = a^2 + b^2, canonical |
| FibDrv.DoublePair | fibdrv.c:261-271 | from (F(m), F(m+1)) the doubling gives (F(2m), F(2m+1)) |
| FibDrv.Advance | fibdrv.c:272-276 | a set bit moves (F(j), F(j+1)) to (F(j+1), F(j+2)) |
| FibDrv.DoublingStep | fibdrv.c:261-276 | one iteration maps (F(m), F(m+1)) to (F(n), F(n+1)) for n = 2m + bit |
| FibDrv.LoopPass | fibdrv.c:260-277 | for k <= 101, the prefix read after bit i is twice the previous prefix plus bit i, and its successor's Fibonacci number fits |
| FibDrv.DoublingLoop | fibdrv.c:260-277 | from the highest set bit down to bit 0 the loop keeps (a, b) = (F(k >> i), F((k >> i) + 1)) and ends with a = F(k) |
| FibDrv.FibSequence | fibdrv.c:253-280 | for every k the clamp lets through, the result is canonical, its value is F(k), and its digits are the decimal digits of F(k) |
| Experiment.LoopTop | experiment/experiment1.c:11 | the starting bit is missing only for n == 0 with clz; otherwise it is at most 31 and no set bit of the bits read lies above it |
| Experiment.DoubleWordsFib | experiment/experiment1.c:13-17 | the doubling update on words reduced modulo 2^64 gives F(2p) and F(2p+1) modulo 2^64 |
| Experiment.StepWordsFib | experiment/experiment1.c:18-22 | the step update gives F(q+1) and F(q+2) modulo 2^64 |
| Experiment.BitTestMeaning | experiment/experiment1.c:18 | `(n & (1 << i)) > 0` reads bit i of n mod 2^31, and is false at bit 31 |
| Experiment.PassFib | experiment/experiment1.c:12-23 | one iteration moves (F(n' >> (i+1)), F((n' >> (i+1)) + 1)) mod 2^64 to the same pair at i, for n' = n mod 2^31 |
| Experiment.PassesFib | experiment/experiment1.c:12-23 | from any bit i down to bit 0, the loop keeps (a, b) = (F(n' >> (i+1)), F((n' >> (i+1)) + 1)) mod 2^64 and ends with F(n') and F(n' + 1) mod 2^64, for n' = n mod 2^31 |
| Experiment.DoubleFib | experiment/experiment1.c:8-25 | double_fib has a result except for n == 0 with clz |
| Experiment.DoubleFibIsFib | experiment/experiment1.c:8-25 | double_fib(n, clz) returns F(n mod 2^31) mod 2^64 in both modes |
| Experiment.DoubleFibModesAgree | experiment/experiment1.c:11-23 | for n != 0, starting at bit 31 and starting at the highest set bit give the same result |
| Experiment.DoubleFibExact | experiment/experiment1.c:8-25 | for 0 <= n <= 93 the result is exactly F(n) |
| Experiment.DoubleFibWraps | experiment/experiment1.c:8-25 | at n = 94 the result is no longer F(94) |
| Experiment.FillSeries | experiment/experiment1.c:30-34 | after the loop, series[t] = F(t) mod 2^64 for every t written |
| Experiment.EasyFibAsWritten | experiment/experiment1.c:27-36 | easy_fib with a 92-entry table has a result exactly for 0 <= n < 92, and that result is F(n) |
| Experiment.EasyFib | experiment/experiment1.c:27-36 | with 93 entries, easy_fib returns F(n) for 0 <= n <= 92 |
| Experiment.MainCalls | experiment/experiment1.c:46-63 | for each i main passes, both double_fib modes return F(i); the table as written fails only at i = 92; below that it agrees with double_fib |

## Left out

- Kernel plumbing is not modelled. This covers module registration, cdev/class setup, `fib_open`/`fib_release` and the mutex, `fib_write`, and `fib_read`'s `snprintf` and `copy_to_user`. These are I/O and locking with no arithmetic in them.
- main's timing code is not modelled: `elapse`, `clock_gettime` and `printf`. `Experiment.MainCalls` stands for the calls main times: `easy_fib(i)`, `double_fib(i, false)` and `double_fib(i, true)`. `FibDrv.FibSequence` stands for `fib_read`'s call at fibdrv.c:304.
- C string mechanics are abstracted away: NUL terminators, the `'0'`/48 offsets and `strlcpy`. Digits are the integers 0 to 9. The one effect of `strlcpy` that matters is truncation to 99 characters, which `BigNums.Copy` keeps.
- The `n_carry`/`n_borrow` return counts are dropped. No caller uses them.
- Aliased operands, such as subtracting a bignum from itself through one pointer, are not modelled. The sign flips would then change both operands at once. No add or subtract call in fib_sequence aliases its operands; `multiply_bignum(&a, &a, ...)` and `multiply_bignum(&b, &b, ...)` do, but multiply only reads its operands.
- BigNums.AddBigNum: a mixed-sign sum of zero, such as 5 + (-5), reaches the direct path of subtract_bignum. There the source leaves `lastdigit` at 0 for the digit "0"; the model gives it the count 1. For every other pair the count is the source's. fib_sequence never adds operands of different signs.
- BigNums.SubtractBigNum: a difference of zero, such as 5 - 5, gets the count 1 where the source leaves `lastdigit` at 0. `BigNums.SubtractAsWrittenWhenUnequal` shows that every other subtraction of positive operands equals the source's result. fib_sequence only computes 2b - a, which `FibDrv.TwiceMinus` shows is at least b >= 1, so the driver never meets a zero difference.
- BigNums.CompareBigNumMeaning: holds for canonical operands only. A MINUS zero, which multiply produces for 0 times a negative number, compares below the PLUS zero; `Multiply.ZeroTimesMinusFive` exhibits it.
- BigNums.AddBigNum: requires max(la, lb) + 1 < MAXDIGITS on the same-sign path, and normalized operands on the mixed-sign path. The C code writes past the buffer without the first; the second is what compare and subtract need to be meaningful.
- Multiply.MultiplyBigNum: requires la + lb < MAXDIGITS. Beyond that the C code writes past `c->digits`: at la + lb = 100 only the terminator, when the product has 100 digits. From la + lb = 101 it also writes past `res`, when the last row ends with a carry.
- FibDrv.FibSequence: requires k <= MAX_LENGTH, the positions a `read(2)` after `fib_device_lseek` can pass. `pread(2)` hands its own position to `fib_read` (fibdrv.c:301, 304) without the clamp, so larger k reach fib_sequence; the C computes those correctly until the products outgrow the 100-digit buffer, at a k in the hundreds. That range is not modelled.
- FibDrv.FibSequence returns F(0) = 0 at k = 0, where the C code calls `__builtin_clz(0)`. `FibDrv.LoopStart` records that the start is undefined there.
- BigNums.IntToBigNum: excludes INT_MIN, where `abs` is undefined.
- Experiment.DoubleFib: with clz false the loop starts at bit 31, so every such call evaluates `1 << 31`, which the C standard leaves undefined. The model takes it to be INT_MIN, as GCC computes it. `Experiment.DoubleFibIsFib` and `Experiment.DoubleFibExact` in that mode, and `Experiment.MainCalls` for each `double_fib(i, false)`, rest on that reading, not only the results for negative n.

## Findings

| source | as written | input that shows it | evidently intended | confidence | as-written member | corrected member |
|---|---|---|---|---|---|---|
| fibdrv.c:175-179 | subtracting equal magnitudes scans past every zero digit, sets `lastdigit` to 0 and writes "0" | any a == b, e.g. 5 - 5 | the digit "0" with count 1 | not executed | BigNums.SubtractMagnitudesAsWritten | BigNums.SubtractMagnitudes |
| fibdrv.c:225-242 | a zero operand keeps the leading zeros of the buffer in the result | 0 × 12 gives "00" with count 2 | the digit "0" with count 1 | not executed | Multiply.ZeroTimesTwelve | Multiply.MultiplyNormalized |
| fibdrv.c:253-260 | fib_sequence(0) calls `__builtin_clz(0)`, which is undefined | lseek to position 0, then read | the loop does not run and F(0) = 0 is returned | not executed | FibDrv.ZeroOffsetHasNoLoopStart | FibDrv.FibSequence |
| experiment/experiment1.c:29-35 | `series` has 92 entries, but easy_fib(92) writes and reads `series[92]` | easy_fib(92), which main calls at its last iteration | a table of 93 entries | not executed | Experiment.MainCalls | Experiment.EasyFib |

Each finding is exhibited on the as-written side as follows:

- `BigNums.EqualOperandsLoseCount` shows the count-0 result of `BigNums.SubtractMagnitudesAsWritten`.
- `Multiply.ZeroTimesTwelve` is the concrete 0 × 12 run of `Multiply.MultiplyBigNum`. `Multiply.MulResultNormalized` gives the general condition.
- `FibDrv.ZeroOffsetHasNoLoopStart` uses `FibDrv.LoopStart`.
- `Experiment.MainCalls` uses `Experiment.EasyFibAsWritten`.

On the corrected side:

- `BigNums.SubtractMagnitudes` is the subtraction that add and subtract use.
- fib_sequence never multiplies by a zero operand that has more than one digit. The driver therefore uses the multiply as written, and `FibDrv.MultiplyCanonical` proves that this is safe.

=== FILE: bignum.dfy ===
/**
 The driver's decimal bignum (fibdrv.c:29-251): a sign and a string of
 decimal digits, most significant first, in a buffer of MAXDIGITS
 characters.

 The C operations take their operands by pointer. `add_bignum` and
 `subtract_bignum` call each other when the signs differ, flipping an
 operand's sign in place and setting it back afterwards. Here each of the
 two is a pure function that returns a `Frame`: the state of all three
 pointees (`a`, `b` and the result `c`) when the C call returns, so that
 "the operands come back unchanged" is part of what is proved.
 */
module BigNums {
  import opened Digits

  /** MAXDIGITS: the size of the digit buffer, terminating NUL included. */
  const MaxDigits: nat := 100

  /** The source's PLUS and MINUS, also used as results of the comparison. */
  const PLUS: int := 1
  const MINUS: int := -1

  /** Largest value of a C `int`. */
  const IntMax: int := 0x7fff_ffff

  datatype Sign = Plus | Minus

  /** The integer the source stores in `signbit`. */
  function SignValue(s: Sign): int
  {
    if s == Plus then PLUS else MINUS
  }

  /** `-1 * signbit`. */
  function Negate(s: Sign): (r: Sign)
    ensures SignValue(r) == -SignValue(s)
  {
    if s == Plus then Minus else Plus
  }

  /** `a->signbit * b->signbit`. */
  function Times(s: Sign, t: Sign): (r: Sign)
    ensures SignValue(r) == SignValue(s) * SignValue(t)
  {
    if s == t then Plus else Minus
  }

  function Max(x: int, y: int): int
  {
    if x > y then x else y
  }

  /** `count` is the source's `lastdigit`, which holds the number of
      digits in use despite its name. It is kept apart from `digits` (the
      string up to its NUL) because the source can let the two disagree. */
  datatype BigNum = BigNum(digits: seq<Digit>, sign: Sign, count: int)

  /** A bignum every operation accepts: the count matches the string and
      the string fits the buffer with its NUL. */
  predicate WellFormed(n: BigNum)
  {
    1 <= n.count == |n.digits| < MaxDigits
  }

  /** Well formed and without leading zeros. */
  predicate Normalized(n: BigNum)
  {
    WellFormed(n) && NoLeadingZero(n.digits)
  }

  /** Normalized, and zero carries the PLUS sign. */
  predicate Canonical(n: BigNum)
  {
    Normalized(n) && (Val(n.digits) == 0 ==> n.sign == Plus)
  }

  /** The integer a bignum denotes. */
  function Value(n: BigNum): int
  {
    var v: int := Val(n.digits);
    if n.sign == Plus then v else -v
  }

  function Abs(x: int): nat
  {
    if x < 0 then -x else x
  }

  lemma SmallIntFits(x: nat)
    requires x <= IntMax
    ensures |DecimalDigits(x)| <= 10
  {
    assert Pow10(10) == 10_000_000_000;
    CountFromValue(DecimalDigits(x), 10);
  }

  /** int_to_bignum: the sign and the decimal form of |s| written by
      `snprintf("%d")`, with `strlen` of it as the count. `abs(INT_MIN)`
      is undefined, so INT_MIN is excluded. */
  function IntToBigNum(s: int): (n: BigNum)
    requires -IntMax <= s <= IntMax
    ensures n.sign == Plus <==> s >= 0
    ensures Canonical(n) && Value(n) == s
    ensures n.digits == DecimalDigits(Abs(s))
  {
    SmallIntFits(Abs(s));
    var ds := DecimalDigits(Abs(s));
    BigNum(ds, if s >= 0 then Plus else Minus, |ds|)
  }

  /** A canonical bignum with a non-negative value holds exactly the
      decimal digits of that value. */
  lemma CanonicalDigits(n: BigNum, v: nat)
    requires Canonical(n) && Value(n) == v
    ensures n.sign == Plus && n.digits == DecimalDigits(v)
  {
    DecimalDigitsUnique(n.digits);
  }

  /** initialize_bignum. */
  function Zero(): (n: BigNum)
    ensures Canonical(n) && Value(n) == 0 && n.digits == [0]
  {
    IntToBigNum(0)
  }

  /** copy: `strlcpy` keeps at most MAXDIGITS - 1 characters. */
  function Copy(src: BigNum): (dst: BigNum)
    ensures |dst.digits| < MaxDigits
    ensures dst.sign == src.sign && dst.count == src.count
    ensures WellFormed(src) ==> dst == src
  {
    var ds := if |src.digits| < MaxDigits then src.digits else src.digits[..MaxDigits - 1];
    BigNum(ds, src.sign, src.count)
  }

  // ---------------------------------------------------------------
  // Integer facts the digit loops rest on

  lemma LeadArith(x0: int, y0: int, p: int, a: int, b: int)
    requires x0 > y0 && p > 0 && 0 <= a && 0 <= b < p
    ensures x0 * p + a > y0 * p + b
  {
    var d := x0 - y0 - 1;
    assert d * p >= 0;
    assert x0 * p == y0 * p + p + d * p;
  }

  lemma SumArith(vd: int, vx: int, vy: int, p: int, out: int, s: int, xd: int, yd: int, carry: int)
    requires vd + out * p == vx + vy + s / 10
    requires s == xd + yd + carry
    ensures (vd * 10 + s % 10) + out * (10 * p) == (vx * 10 + xd) + (vy * 10 + yd) + carry
  {
    assert s == 10 * (s / 10) + s % 10;
    assert out * (10 * p) == 10 * (out * p);
  }

  lemma DiffArith(vd: int, vx: int, vy: int, p: int, out: int, d: int, op: int, xd: int, yd: int, borrow: int)
    requires vd == vx - vy - op + out * p
    requires d - 10 * op == xd - (yd + borrow)
    ensures vd * 10 + d == (vx * 10 + xd) - (vy * 10 + yd) - borrow + out * (10 * p)
  {
    assert out * (10 * p) == 10 * (out * p);
  }

  lemma NoFinalBorrow(v: int, diff: int, borrow: int, p: int)
    requires v == diff + borrow * p && 0 <= diff && v < p && 0 <= borrow <= 1
    ensures borrow == 0
  {
  }

  /** The carry out of a digit loop: set exactly when the total reaches
      the next power of ten. */
  lemma CarryOut(v: int, total: int, carry: int, p: int)
    requires v + carry * p == total && 0 <= v < p && 0 <= carry <= 1
    ensures carry == 0 <==> total < p
    ensures carry == 0 ==> v == total
    ensures carry != 0 ==> v + p == total
  {
    if carry == 0 {
      MulZero(p, carry);
    } else {
      MulOne(p, carry);
    }
  }

  // ---------------------------------------------------------------
  // compare_bignum

  lemma LeadingDigitDecides(x: seq<Digit>, y: seq<Digit>)
    requires |x| == |y| >= 1 && x[0] > y[0]
    ensures Val(x) > Val(y)
  {
    ValFront(x);
    ValFront(y);
    ValBound(y[1..]);
    LeadArith(x[0], y[0], Pow10(|x| - 1), Val(x[1..]), Val(y[1..]));
  }

  lemma SameLeadingDigit(x: seq<Digit>, y: seq<Digit>)
    requires |x| == |y| >= 1 && x[0] == y[0]
    ensures Val(x) - Val(y) == Val(x[1..]) - Val(y[1..])
  {
    ValFront(x);
    ValFront(y);
  }

  /** The digit loop of compare_bignum (lines 204-210) on strings of one
      length: PLUS when x is the smaller, MINUS when it is the larger. */
  function CompareDigits(x: seq<Digit>, y: seq<Digit>): (r: int)
    requires |x| == |y|
    ensures r == PLUS <==> Val(x) < Val(y)
    ensures r == MINUS <==> Val(x) > Val(y)
    ensures r == 0 <==> Val(x) == Val(y)
    decreases |x|
  {
    if |x| == 0 then 0
    else if x[0] > y[0] then
      LeadingDigitDecides(x, y);
      MINUS
    else if y[0] > x[0] then
      LeadingDigitDecides(y, x);
      PLUS
    else
      SameLeadingDigit(x, y);
      CompareDigits(x[1..], y[1..])
  }

  /** compare_bignum, with its inverted convention: PLUS means a < b. */
  function CompareBigNum(a: BigNum, b: BigNum): (r: int)
    requires WellFormed(a) && WellFormed(b)
    ensures r == PLUS || r == MINUS || r == 0
  {
    if a.sign == Minus && b.sign == Plus then PLUS
    else if a.sign == Plus && b.sign == Minus then MINUS
    else if b.count > a.count then PLUS * SignValue(a.sign)
    else if a.count > b.count then MINUS * SignValue(a.sign)
    else SignValue(a.sign) * CompareDigits(a.digits, b.digits)
  }

  /** On canonical bignums the comparison decides the order of the values. */
  lemma CompareBigNumMeaning(a: BigNum, b: BigNum)
    requires Canonical(a) && Canonical(b)
    ensures CompareBigNum(a, b) == PLUS <==> Value(a) < Value(b)
    ensures CompareBigNum(a, b) == MINUS <==> Value(a) > Value(b)
    ensures CompareBigNum(a, b) == 0 <==> Value(a) == Value(b)
  {
    if a.sign == b.sign {
      if b.count > a.count {
        ShorterIsSmaller(a.digits, b.digits);
      } else if a.count > b.count {
        ShorterIsSmaller(b.digits, a.digits);
      }
    }
  }

  /** Swapping the operands flips the outcome, on every well-formed pair. */
  lemma {:induction false} CompareDigitsAntisymmetric(x: seq<Digit>, y: seq<Digit>)
    requires |x| == |y|
    ensures CompareDigits(x, y) == -CompareDigits(y, x)
    decreases |x|
  {
    if |x| > 0 && x[0] == y[0] {
      CompareDigitsAntisymmetric(x[1..], y[1..]);
    }
  }

  lemma CompareAntisymmetric(a: BigNum, b: BigNum)
    requires WellFormed(a) && WellFormed(b)
    ensures CompareBigNum(a, b) == -CompareBigNum(b, a)
  {
    if a.count == b.count {
      CompareDigitsAntisymmetric(a.digits, b.digits);
    }
  }

  // ---------------------------------------------------------------
  // Digit loops of add_bignum and subtract_bignum

  /** The carry loops of add_bignum (lines 97-112), from the low digit up:
      the digits written and the carry left over. Once y runs out its
      digit counts as 0, which is the second loop of the source. */
  function DigitSum(x: seq<Digit>, y: seq<Digit>, carry: int): (r: (seq<Digit>, int))
    requires |y| <= |x| && 0 <= carry <= 1
    ensures |r.0| == |x| && 0 <= r.1 <= 1
    ensures Val(r.0) + r.1 * Pow10(|x|) == Val(x) + Val(y) + carry
    decreases |x|
  {
    if |x| == 0 then ([], carry)
    else
      var n := |x|;
      var yd: Digit := if |y| == 0 then 0 else y[|y| - 1];
      var y' := if |y| == 0 then y else y[..|y| - 1];
      var s := x[n - 1] + yd + carry;
      var rest := DigitSum(x[..n - 1], y', s / 10);
      DigitSumStep(x, y, y', yd, carry, s, rest.0, rest.1);
      (rest.0 + [s % 10], rest.1)
  }

  lemma DigitSumStep(x: seq<Digit>, y: seq<Digit>, y': seq<Digit>, yd: Digit, carry: int,
                     s: int, ds: seq<Digit>, out: int)
    requires |x| >= 1 && 0 <= carry <= 1
    requires |y| == 0 ==> y' == y && yd == 0
    requires |y| > 0 ==> y' == y[..|y| - 1] && yd == y[|y| - 1]
    requires s == x[|x| - 1] + yd + carry
    requires Val(ds) + out * Pow10(|x| - 1) == Val(x[..|x| - 1]) + Val(y') + s / 10
    ensures Val(ds + [s % 10]) + out * Pow10(|x|) == Val(x) + Val(y) + carry
  {
    var n := |x|;
    ValSnoc(ds, s % 10);
    assert Val(y) == Val(y') * 10 + yd;
    SumArith(Val(ds), Val(x[..n - 1]), Val(y'), Pow10(n - 1), out, s, x[n - 1], yd, carry);
  }

  /** The borrow loops of subtract_bignum (lines 151-174), from the low
      digit up: the digits written and the borrow left over. Once y runs
      out its digit counts as 0, which covers the `while (op)` loop and the
      plain copy of a's remaining digits. */
  function DigitDiff(x: seq<Digit>, y: seq<Digit>, borrow: int): (r: (seq<Digit>, int))
    requires |y| <= |x| && 0 <= borrow <= 1
    ensures |r.0| == |x| && 0 <= r.1 <= 1
    ensures Val(r.0) == Val(x) - Val(y) - borrow + r.1 * Pow10(|x|)
    decreases |x|
  {
    if |x| == 0 then ([], borrow)
    else
      var n := |x|;
      var yd: Digit := if |y| == 0 then 0 else y[|y| - 1];
      var y' := if |y| == 0 then y else y[..|y| - 1];
      var t := x[n - 1] - (yd + borrow);
      var op := if t < 0 then 1 else 0;
      var d: Digit := t + 10 * op;
      var rest := DigitDiff(x[..n - 1], y', op);
      DigitDiffStep(x, y, y', yd, borrow, d, op, rest.0, rest.1);
      (rest.0 + [d], rest.1)
  }

  lemma DigitDiffStep(x: seq<Digit>, y: seq<Digit>, y': seq<Digit>, yd: Digit, borrow: int,
                      d: Digit, op: int, ds: seq<Digit>, out: int)
    requires |x| >= 1
    requires |y| == 0 ==> y' == y && yd == 0
    requires |y| > 0 ==> y' == y[..|y| - 1] && yd == y[|y| - 1]
    requires d - 10 * op == x[|x| - 1] - (yd + borrow)
    requires Val(ds) == Val(x[..|x| - 1]) - Val(y') - op + out * Pow10(|x| - 1)
    ensures Val(ds + [d]) == Val(x) - Val(y) - borrow + out * Pow10(|x|)
  {
    var n := |x|;
    ValSnoc(ds, d);
    assert Val(y) == Val(y') * 10 + yd;
    DiffArith(Val(ds), Val(x[..n - 1]), Val(y'), Pow10(n - 1), out, d, op, x[n - 1], yd, borrow);
  }

  /** Number of leading '0' characters: the scan of lines 175-176, which
      stops at the first other digit or at the NUL. */
  function LeadingZeros(ds: seq<Digit>): (i: nat)
    ensures i <= |ds|
    ensures forall t :: 0 <= t < i ==> ds[t] == 0
    ensures i < |ds| ==> ds[i] != 0
  {
    if |ds| == 0 || ds[0] != 0 then 0 else 1 + LeadingZeros(ds[1..])
  }

  lemma DropZeros(ds: seq<Digit>, i: nat)
    requires i <= |ds|
    requires forall t :: 0 <= t < i ==> ds[t] == 0
    ensures Val(ds[i..]) == Val(ds)
  {
    assert ds == ds[..i] + ds[i..];
    ValAppend(ds[..i], ds[i..]);
    ValZero(ds[..i]);
  }

  /** Same-sign addition of magnitudes, lines 94-120: x is the longer. The
      result gains a digit exactly when the sum reaches 10^|x|. */
  function AddMagnitudes(x: seq<Digit>, y: seq<Digit>): (r: seq<Digit>)
    requires 1 <= |y| <= |x|
    ensures Val(r) == Val(x) + Val(y)
    ensures |r| == (if Val(x) + Val(y) >= Pow10(|x|) then |x| + 1 else |x|)
    ensures NoLeadingZero(x) ==> NoLeadingZero(r)
  {
    var (ds, carry) := DigitSum(x, y, 0);
    ValBound(ds);
    CarryOut(Val(ds), Val(x) + Val(y), carry, Pow10(|x|));
    if carry != 0 then
      ValAppend([1], ds);
      [1] + ds
    else
      NoCarryKeepsNormal(x, ds);
      ds
  }

  lemma NoCarryKeepsNormal(x: seq<Digit>, ds: seq<Digit>)
    requires |ds| == |x| >= 1 && Val(ds) >= Val(x)
    ensures NoLeadingZero(x) ==> NoLeadingZero(ds)
  {
    if |x| >= 2 && NoLeadingZero(x) {
      ValLower(x);
      NoLeadingZeroFromValue(ds);
    }
  }

  /** The digits lines 149-174 write for a - b, both positive and a >= b:
      as many as a has, the final borrow being zero. */
  function Difference(a: BigNum, b: BigNum): (ds: seq<Digit>)
    requires Normalized(a) && Normalized(b) && Val(a.digits) >= Val(b.digits)
    ensures |ds| == a.count == Max(a.count, b.count)
    ensures Val(ds) == Val(a.digits) - Val(b.digits)
  {
    LongerWhenLarger(a.digits, b.digits);
    var (ds, borrow) := DigitDiff(a.digits, b.digits, 0);
    ValBound(ds);
    NoFinalBorrow(Val(ds), Val(a.digits) - Val(b.digits), borrow, Pow10(|ds|));
    ds
  }

  /** The string with its leading zeros dropped, or "0" when nothing else
      is left: the copy of lines 178-184. */
  function StripLeadingZeros(ds: seq<Digit>): (r: seq<Digit>)
    requires |ds| >= 1
    ensures NoLeadingZero(r) && Val(r) == Val(ds) && |r| <= |ds|
    ensures |r| == |ds| - LeadingZeros(ds) <==> Val(ds) != 0
    ensures NoLeadingZero(ds) ==> r == ds
  {
    var i := LeadingZeros(ds);
    DropZeros(ds, i);
    ValZero(ds);
    if i == |ds| then [0]
    else
      assert ds[i..][0] == ds[i];
      ds[i..]
  }

  /** The direct path of subtract_bignum (lines 149-184) as written: both
      operands positive and a >= b. The count drops by the number of
      leading zeros even when every digit was zero and the string became
      "0", so a zero difference is left with the count 0. */
  function SubtractMagnitudesAsWritten(a: BigNum, b: BigNum): (c: BigNum)
    requires Normalized(a) && Normalized(b) && Val(a.digits) >= Val(b.digits)
    ensures c.sign == Plus && NoLeadingZero(c.digits)
    ensures Val(c.digits) == Val(a.digits) - Val(b.digits)
    ensures c.count == |c.digits| <==> Val(a.digits) != Val(b.digits)
    ensures Val(a.digits) == Val(b.digits) ==> c.count == 0
  {
    var k := Max(a.count, b.count);
    var ds := Difference(a, b);
    ValZero(ds);
    BigNum(StripLeadingZeros(ds), Plus, k - LeadingZeros(ds))
  }

  /** The direct path with the count fixed: "0" gets the count 1. */
  function SubtractMagnitudes(a: BigNum, b: BigNum): (c: BigNum)
    requires Normalized(a) && Normalized(b) && Val(a.digits) >= Val(b.digits)
    ensures Normalized(c) && c.sign == Plus
    ensures Val(c.digits) == Val(a.digits) - Val(b.digits)
    ensures Val(a.digits) != Val(b.digits) ==> c == SubtractMagnitudesAsWritten(a, b)
    ensures Val(a.digits) == Val(b.digits) ==> c == SubtractMagnitudesAsWritten(a, b).(count := 1)
  {
    LongerWhenLarger(a.digits, b.digits);
    var c := SubtractMagnitudesAsWritten(a, b);
    c.(count := |c.digits|)
  }

  /** Subtracting equal operands leaves the string "0" with count 0, a
      bignum no other operation accepts. */
  lemma EqualOperandsLoseCount(a: BigNum, b: BigNum)
    requires Normalized(a) && Normalized(b) && Val(a.digits) == Val(b.digits)
    ensures SubtractMagnitudesAsWritten(a, b).digits == [0]
    ensures SubtractMagnitudesAsWritten(a, b).count == 0
    ensures !WellFormed(SubtractMagnitudesAsWritten(a, b))
  {
    var c := SubtractMagnitudesAsWritten(a, b);
    if |c.digits| >= 2 {
      ValLower(c.digits);
    }
    assert c.digits[0] == Val(c.digits);
  }

  // ---------------------------------------------------------------
  // add_bignum and subtract_bignum

  /** The state of the three pointees of an add or subtract call when it
      returns: the two operands and the result. */
  datatype Frame = Frame(a: BigNum, b: BigNum, c: BigNum)

  /** Termination measure of the mutual recursion: a subtraction with a
      negative operand (3) becomes an addition; a mixed-sign addition (2)
      becomes a subtraction of positives; a swapped addition or
      subtraction (1) becomes one that is not swapped again (0). */
  function AddRank(a: BigNum, b: BigNum): nat
  {
    if a.sign != b.sign then 2 else if a.count < b.count then 1 else 0
  }

  function SubRank(a: BigNum, b: BigNum): nat
    requires WellFormed(a) && WellFormed(b)
  {
    if a.sign == Minus || b.sign == Minus then 3
    else if CompareBigNum(a, b) == PLUS then 1
    else 0
  }

  /** add_bignum. */
  function AddBigNum(a: BigNum, b: BigNum): (f: Frame)
    requires WellFormed(a) && WellFormed(b)
    requires a.sign == b.sign ==> Max(a.count, b.count) + 1 < MaxDigits
    requires a.sign != b.sign ==> Normalized(a) && Normalized(b)
    ensures f.a == a && f.b == b
    ensures WellFormed(f.c) && Value(f.c) == Value(a) + Value(b)
    ensures Normalized(a) && Normalized(b) ==> Normalized(f.c)
    ensures Canonical(a) && Canonical(b) ==> Canonical(f.c)
    ensures a.sign == b.sign ==> f.c.sign == a.sign
    ensures a.sign == b.sign ==>
      var m := Max(a.count, b.count);
      f.c.count == (if Val(a.digits) + Val(b.digits) >= Pow10(m) then m + 1 else m)
    decreases AddRank(a, b)
  {
    if a.sign != b.sign then
      if a.sign == Minus then
        var f := SubtractBigNum(b, a.(sign := Plus));
        Frame(f.b.(sign := Minus), f.a, f.c)
      else
        var f := SubtractBigNum(a, b.(sign := Plus));
        Frame(f.a, f.b.(sign := Minus), f.c)
    else if a.count < b.count then
      var f := AddBigNum(b, a);
      Frame(f.b, f.a, f.c)
    else
      Frame(a, b, AddSameSign(a, b))
  }

  /** The same-sign path of add_bignum (lines 94-120) once a is the
      longer operand: the magnitudes add and the sign is kept. */
  function AddSameSign(a: BigNum, b: BigNum): (c: BigNum)
    requires WellFormed(a) && WellFormed(b) && a.sign == b.sign
    requires b.count <= a.count && a.count + 1 < MaxDigits
    ensures WellFormed(c) && Value(c) == Value(a) + Value(b) && c.sign == a.sign
    ensures Normalized(a) ==> Normalized(c)
    ensures Canonical(a) && Canonical(b) ==> Canonical(c)
    ensures c.count == (if Val(a.digits) + Val(b.digits) >= Pow10(a.count) then a.count + 1 else a.count)
  {
    var ds := AddMagnitudes(a.digits, b.digits);
    BigNum(ds, a.sign, |ds|)
  }

  /** subtract_bignum, with the count of a zero difference fixed. */
  function SubtractBigNum(a: BigNum, b: BigNum): (f: Frame)
    requires Normalized(a) && Normalized(b)
    requires a.sign != b.sign ==> Max(a.count, b.count) + 1 < MaxDigits
    ensures f.a == a && f.b == b
    ensures Normalized(f.c) && Value(f.c) == Value(a) - Value(b)
    ensures Canonical(a) && Canonical(b) ==> Canonical(f.c)
    decreases SubRank(a, b)
  {
    if a.sign == Minus || b.sign == Minus then
      var f := AddBigNum(a, b.(sign := Negate(b.sign)));
      Frame(f.a, f.b.(sign := Negate(f.b.sign)), f.c)
    else
      CompareBigNumMeaning(a, b);
      CompareBigNumMeaning(b, a);
      if CompareBigNum(a, b) == PLUS then
        var f := SubtractBigNum(b, a);
        Frame(f.b, f.a, f.c.(sign := Minus))
      else
        Frame(a, b, SubtractMagnitudes(a, b))
  }

  /** On positive operands with different values, subtract_bignum gives
      exactly what the source gives: the direct path as written, swapped
      and negated when a < b. Only a zero difference is corrected. */
  lemma SubtractAsWrittenWhenUnequal(a: BigNum, b: BigNum)
    requires Normalized(a) && Normalized(b) && a.sign == Plus && b.sign == Plus
    requires Val(a.digits) != Val(b.digits)
    ensures SubtractBigNum(a, b).c
         == if Val(a.digits) > Val(b.digits) then SubtractMagnitudesAsWritten(a, b)
            else SubtractMagnitudesAsWritten(b, a).(sign := Minus)
  {
  }

  /** A canonical bignum is determined by its value. */
  lemma CanonicalUnique(x: BigNum, y: BigNum)
    requires Canonical(x) && Canonical(y) && Value(x) == Value(y)
    ensures x == y
  {
    DecimalDigitsUnique(x.digits);
    DecimalDigitsUnique(y.digits);
  }

  /** add(a, b) == add(b, a) on canonical operands. */
  lemma AddCommutes(a: BigNum, b: BigNum)
    requires Canonical(a) && Canonical(b)
    requires a.sign == b.sign ==> Max(a.count, b.count) + 1 < MaxDigits
    ensures AddBigNum(a, b).c == AddBigNum(b, a).c
  {
    CanonicalUnique(AddBigNum(a, b).c, AddBigNum(b, a).c);
  }

  /** Adding the zero of initialize_bignum, on either side, returns the
      other operand unchanged. */
  lemma AddZero(x: BigNum)
    requires Canonical(x)
    requires x.sign == Plus ==> x.count + 1 < MaxDigits
    ensures AddBigNum(x, Zero()).c == x
    ensures AddBigNum(Zero(), x).c == x
  {
    CanonicalUnique(AddBigNum(x, Zero()).c, x);
    CanonicalUnique(AddBigNum(Zero(), x).c, x);
  }
}

=== FILE: digits.dfy ===
/**
 Decimal digit sequences, the raw material of the driver's bignums.

 A bignum's `digits` field is a string of ASCII digits, most significant
 first; here each character is its numeric value, a `Digit`. The
 multiplication routine works on the same digits reversed (least
 significant first), so this module also gives the value of such a
 reversed sequence and the link between the two orders.
 */
module Digits {

  /** One decimal digit: the character '0' + d of the source. */
  type Digit = d: int | 0 <= d < 10

  function Pow10(n: nat): (p: nat)
    ensures p >= 1
  {
    if n == 0 then 1 else 10 * Pow10(n - 1)
  }

  /** Value of a most-significant-first digit string. */
  function Val(ds: seq<Digit>): nat
  {
    if |ds| == 0 then 0 else Val(ds[..|ds| - 1]) * 10 + ds[|ds| - 1]
  }

  /** Value of a least-significant-first digit buffer. */
  function LVal(s: seq<Digit>): nat
  {
    if |s| == 0 then 0 else s[0] + 10 * LVal(s[1..])
  }

  function Reverse<T>(s: seq<T>): (r: seq<T>)
    ensures |r| == |s|
  {
    seq(|s|, i requires 0 <= i < |s| => s[|s| - 1 - i])
  }

  /** The source's normal form: at least one digit and no leading zero
      unless the whole number is the single digit 0. */
  predicate NoLeadingZero(ds: seq<Digit>)
  {
    |ds| >= 1 && (|ds| == 1 || ds[0] != 0)
  }

  /** The shortest decimal representation of x. */
  function DecimalDigits(x: nat): (ds: seq<Digit>)
    ensures NoLeadingZero(ds)
    ensures Val(ds) == x
    decreases x
  {
    if x < 10 then [x]
    else
      var p := DecimalDigits(x / 10);
      ValSnoc(p, x % 10);
      p + [x % 10]
  }

  // ---------------------------------------------------------------
  // Powers of ten

  lemma {:induction false} Pow10Add(m: nat, n: nat)
    ensures Pow10(m + n) == Pow10(m) * Pow10(n)
    decreases n
  {
    if n > 0 {
      Pow10Add(m, n - 1);
      assert Pow10(m + n) == 10 * Pow10(m + n - 1);
    }
  }

  /** Equal exponents, equal powers: a congruence step the solver does
      not take unprompted through index arithmetic. */
  lemma Pow10At(m: nat, n: nat)
    requires m == n
    ensures Pow10(m) == Pow10(n)
  {
  }

  lemma {:induction false} Pow10Monotone(m: nat, n: nat)
    requires m <= n
    ensures Pow10(m) <= Pow10(n)
    decreases n
  {
    if m < n {
      Pow10Monotone(m, n - 1);
    }
  }

  // ---------------------------------------------------------------
  // Most-significant-first values

  lemma ValSnoc(ds: seq<Digit>, d: Digit)
    ensures Val(ds + [d]) == Val(ds) * 10 + d
  {
    assert (ds + [d])[..|ds|] == ds;
  }

  lemma {:induction false} ValBound(ds: seq<Digit>)
    ensures Val(ds) < Pow10(|ds|)
    decreases |ds|
  {
    if |ds| > 0 {
      ValBound(ds[..|ds| - 1]);
    }
  }

  /** One more least-significant digit d behind: the shared arithmetic of
      the Val steps. */
  lemma ShiftArith(l: int, v: int, p: int, w: int, d: int)
    requires l == v * p + w
    ensures l * 10 + d == v * (10 * p) + (w * 10 + d)
  {
    assert v * (10 * p) == (v * p) * 10;
  }

  /** Peeling the leading digit instead of the last one. */
  lemma {:induction false} ValFront(ds: seq<Digit>)
    requires |ds| >= 1
    ensures Val(ds) == ds[0] * Pow10(|ds| - 1) + Val(ds[1..])
    decreases |ds|
  {
    if |ds| == 1 {
      assert ds[1..] == [];
      assert ds[..0] == [];
      MulOne(ds[0], Pow10(|ds| - 1));
    } else {
      ValFront(ds[..|ds| - 1]);
      ValFrontStep(ds);
    }
  }

  lemma ValFrontStep(ds: seq<Digit>)
    requires |ds| >= 2
    requires var p := ds[..|ds| - 1];
             Val(p) == p[0] * Pow10(|p| - 1) + Val(p[1..])
    ensures Val(ds) == ds[0] * Pow10(|ds| - 1) + Val(ds[1..])
  {
    var n := |ds|;
    var p := ds[..n - 1];
    assert p[1..] == ds[1..][..n - 2];
    assert ds[1..][n - 2] == ds[n - 1];
    assert Pow10(n - 1) == 10 * Pow10(|p| - 1);
    ShiftArith(Val(p), ds[0], Pow10(|p| - 1), Val(p[1..]), ds[n - 1]);
  }

  lemma {:induction false} ValAppend(x: seq<Digit>, y: seq<Digit>)
    ensures Val(x + y) == Val(x) * Pow10(|y|) + Val(y)
    decreases |y|
  {
    if |y| == 0 {
      assert x + y == x;
      MulOne(Val(x), Pow10(|y|));
    } else {
      ValAppend(x, y[..|y| - 1]);
      ValAppendStep(x, y);
    }
  }

  lemma ValAppendStep(x: seq<Digit>, y: seq<Digit>)
    requires |y| >= 1
    requires var y' := y[..|y| - 1];
             Val(x + y') == Val(x) * Pow10(|y'|) + Val(y')
    ensures Val(x + y) == Val(x) * Pow10(|y|) + Val(y)
  {
    var y' := y[..|y| - 1];
    assert (x + y)[..|x + y| - 1] == x + y';
    assert (x + y)[|x + y| - 1] == y[|y| - 1];
    assert Pow10(|y|) == 10 * Pow10(|y'|);
    ShiftArith(Val(x + y'), Val(x), Pow10(|y'|), Val(y'), y[|y| - 1]);
  }

  predicate AllZero(s: seq<Digit>)
  {
    forall i :: 0 <= i < |s| ==> s[i] == 0
  }

  lemma {:induction false} ValZero(ds: seq<Digit>)
    ensures Val(ds) == 0 <==> AllZero(ds)
    decreases |ds|
  {
    if |ds| > 0 {
      var p := ds[..|ds| - 1];
      ValZero(p);
      assert AllZero(ds) <==> AllZero(p) && ds[|ds| - 1] == 0;
    }
  }

  /** A nonzero value without leading zeros uses its leading place. */
  lemma NonzeroLower(ds: seq<Digit>)
    requires NoLeadingZero(ds) && Val(ds) != 0
    ensures Val(ds) >= Pow10(|ds| - 1)
  {
    if |ds| >= 2 {
      ValLower(ds);
    } else {
      assert Pow10(|ds| - 1) == 1;
    }
  }

  /** A normalized string of two or more digits is at least 10^(len-1). */
  lemma ValLower(ds: seq<Digit>)
    requires NoLeadingZero(ds) && |ds| >= 2
    ensures Val(ds) >= Pow10(|ds| - 1)
  {
    ValFront(ds);
  }

  /** Conversely a large enough value has no leading zero. */
  lemma NoLeadingZeroFromValue(ds: seq<Digit>)
    requires |ds| >= 1
    requires |ds| == 1 || Val(ds) >= Pow10(|ds| - 1)
    ensures NoLeadingZero(ds)
  {
    if |ds| >= 2 && ds[0] == 0 {
      ValFront(ds);
      ValBound(ds[1..]);
    }
  }

  /** The digit count of a normalized string is bounded by its value. */
  lemma CountFromValue(ds: seq<Digit>, d: nat)
    requires NoLeadingZero(ds) && 1 <= d && Val(ds) < Pow10(d)
    ensures |ds| <= d
  {
    if |ds| > d {
      Pow10Monotone(d, |ds| - 1);
      ValLower(ds);
    }
  }

  /** A string shorter than a normalized one has the smaller value. */
  lemma ShorterIsSmaller(x: seq<Digit>, y: seq<Digit>)
    requires NoLeadingZero(y) && 1 <= |x| < |y|
    ensures Val(x) < Val(y)
  {
    ValBound(x);
    Pow10Monotone(|x|, |y| - 1);
    ValLower(y);
  }

  /** A normalized string with the larger value is at least as long. */
  lemma LongerWhenLarger(x: seq<Digit>, y: seq<Digit>)
    requires |x| >= 1 && NoLeadingZero(y) && Val(x) >= Val(y)
    ensures |x| >= |y|
  {
    if |x| < |y| {
      ShorterIsSmaller(x, y);
    }
  }

  /** Two digit strings of one length with one value are the same string. */
  lemma {:induction false} DigitsUnique(x: seq<Digit>, y: seq<Digit>)
    requires |x| == |y| && Val(x) == Val(y)
    ensures x == y
    decreases |x|
  {
    if |x| > 0 {
      var n := |x|;
      var px, py := x[..n - 1], y[..n - 1];
      assert Val(x) == Val(px) * 10 + x[n - 1];
      assert Val(y) == Val(py) * 10 + y[n - 1];
      assert x[n - 1] == Val(x) % 10 && y[n - 1] == Val(y) % 10;
      assert Val(px) == Val(x) / 10 && Val(py) == Val(y) / 10;
      DigitsUnique(px, py);
      assert x == px + [x[n - 1]] && y == py + [y[n - 1]];
    }
  }

  /** Every normalized string is the decimal representation of its value. */
  lemma DecimalDigitsUnique(ds: seq<Digit>)
    requires NoLeadingZero(ds)
    ensures ds == DecimalDigits(Val(ds))
  {
    var e := DecimalDigits(Val(ds));
    LongerWhenLarger(ds, e);
    LongerWhenLarger(e, ds);
    DigitsUnique(ds, e);
  }

  // ---------------------------------------------------------------
  // Least-significant-first values

  lemma {:induction false} LValSnoc(s: seq<Digit>, d: Digit)
    ensures LVal(s + [d]) == LVal(s) + d * Pow10(|s|)
    decreases |s|
  {
    if |s| == 0 {
      assert (s + [d])[1..] == [];
      MulOne(d, Pow10(|s|));
    } else {
      LValSnoc(s[1..], d);
      LValSnocStep(s, d);
    }
  }

  lemma LValSnocStep(s: seq<Digit>, d: Digit)
    requires |s| >= 1
    requires LVal(s[1..] + [d]) == LVal(s[1..]) + d * Pow10(|s[1..]|)
    ensures LVal(s + [d]) == LVal(s) + d * Pow10(|s|)
  {
    assert (s + [d])[1..] == s[1..] + [d];
    assert Pow10(|s|) == 10 * Pow10(|s[1..]|);
    ScaleArith(s[0], LVal(s[1..] + [d]), LVal(s[1..]), d, Pow10(|s[1..]|));
  }

  /** One more least-significant digit s0 in front: the shared arithmetic
      of the LVal steps. */
  lemma ScaleArith(s0: int, l: int, a: int, x: int, p: int)
    requires l == a + x * p
    ensures s0 + 10 * l == (s0 + 10 * a) + x * (10 * p)
  {
    assert x * (10 * p) == 10 * (x * p);
  }

  /** ScaleArith with the weight written first. */
  lemma ScaleArithLeft(s0: int, l: int, a: int, x: int, p: int)
    requires l == a + p * x
    ensures s0 + 10 * l == (s0 + 10 * a) + (10 * p) * x
  {
    assert (10 * p) * x == 10 * (p * x);
  }

  lemma MulOne(x: int, y: int)
    requires y == 1
    ensures x * y == x && y * x == x
  {
  }

  lemma MulZero(x: int, y: int)
    requires y == 0
    ensures x * y == 0 && y * x == 0
  {
  }

  lemma {:induction false} LValBound(s: seq<Digit>)
    ensures LVal(s) < Pow10(|s|)
    decreases |s|
  {
    if |s| > 0 {
      LValBound(s[1..]);
    }
  }

  lemma {:induction false} LValSplit(s: seq<Digit>, m: nat)
    requires m <= |s|
    ensures LVal(s) == LVal(s[..m]) + Pow10(m) * LVal(s[m..])
    decreases m
  {
    if m == 0 {
      assert s[m..] == s;
      assert s[..m] == [];
      MulOne(LVal(s[m..]), Pow10(m));
    } else {
      LValSplit(s[1..], m - 1);
      LValSplitStep(s, m);
    }
  }

  lemma LValSplitStep(s: seq<Digit>, m: nat)
    requires 1 <= m <= |s|
    requires LVal(s[1..]) == LVal(s[1..][..m - 1]) + Pow10(m - 1) * LVal(s[1..][m - 1..])
    ensures LVal(s) == LVal(s[..m]) + Pow10(m) * LVal(s[m..])
  {
    var t := s[1..];
    assert t[..m - 1] == s[..m][1..];
    assert t[m - 1..] == s[m..];
    assert LVal(s[..m]) == s[0] + 10 * LVal(t[..m - 1]);
    ScaleArithLeft(s[0], LVal(t), LVal(t[..m - 1]), LVal(s[m..]), Pow10(m - 1));
  }

  lemma {:induction false} LValZero(s: seq<Digit>)
    ensures LVal(s) == 0 <==> AllZero(s)
    decreases |s|
  {
    if |s| > 0 {
      LValZero(s[1..]);
      assert AllZero(s) <==> s[0] == 0 && AllZero(s[1..]);
    }
  }

  /** Replacing one entry changes the value by the difference at its weight. */
  lemma {:induction false} LValUpdate(s: seq<Digit>, k: nat, v: Digit)
    requires k < |s|
    ensures LVal(s[k := v]) + s[k] * Pow10(k) == LVal(s) + v * Pow10(k)
    decreases k
  {
    if k == 0 {
      assert s[k := v][1..] == s[1..];
      MulOne(s[k], Pow10(k));
      MulOne(v, Pow10(k));
    } else {
      LValUpdate(s[1..], k - 1, v);
      LValUpdateStep(s, k, v);
    }
  }

  lemma LValUpdateStep(s: seq<Digit>, k: nat, v: Digit)
    requires 1 <= k < |s|
    requires LVal(s[1..][k - 1 := v]) + s[1..][k - 1] * Pow10(k - 1) == LVal(s[1..]) + v * Pow10(k - 1)
    ensures LVal(s[k := v]) + s[k] * Pow10(k) == LVal(s) + v * Pow10(k)
  {
    assert s[k := v][1..] == s[1..][k - 1 := v];
    var p := Pow10(k - 1);
    ScaleArith(s[0], LVal(s[1..][k - 1 := v]) + s[k] * p, LVal(s[1..][k - 1 := v]), s[k], p);
    ScaleArith(s[0], LVal(s[1..]) + v * p, LVal(s[1..]), v, p);
  }

  /** A buffer whose value is below 10^m holds zeros from position m on. */
  lemma LValZeroTail(s: seq<Digit>, m: nat)
    requires m <= |s| && LVal(s) < Pow10(m)
    ensures forall t :: m <= t < |s| ==> s[t] == 0
  {
    LValSplit(s, m);
    LValZero(s[m..]);
    assert AllZero(s[m..]);
    forall t | m <= t < |s| ensures s[t] == 0 {
      assert s[t] == s[m..][t - m];
    }
  }

  /** A buffer with zeros from position m on has the value of its first m entries. */
  lemma LValDropZeros(s: seq<Digit>, m: nat)
    requires m <= |s|
    requires forall t :: m <= t < |s| ==> s[t] == 0
    ensures LVal(s) == LVal(s[..m]) < Pow10(m)
  {
    var tail := s[m..];
    assert AllZero(tail) by {
      forall t | 0 <= t < |tail| ensures tail[t] == 0 {
        assert tail[t] == s[m + t];
      }
    }
    LValZero(tail);
    assert LVal(tail) == 0;
    LValSplit(s, m);
    LValBound(s[..m]);
  }

  /** A nonzero entry at position t makes the value at least 10^t. */
  lemma LValDigitLower(s: seq<Digit>, t: nat)
    requires t < |s| && s[t] != 0
    ensures LVal(s) >= Pow10(t)
  {
    LValSplit(s, t);
    assert s[t..][0] == s[t];
  }

  // ---------------------------------------------------------------
  // Reversal

  lemma {:induction false} ValOfReverse(s: seq<Digit>)
    ensures Val(Reverse(s)) == LVal(s)
    decreases |s|
  {
    if |s| > 0 {
      var r := Reverse(s);
      assert r[..|r| - 1] == Reverse(s[1..]);
      ValOfReverse(s[1..]);
    }
  }

  lemma {:induction false} LValOfReverse(s: seq<Digit>)
    ensures LVal(Reverse(s)) == Val(s)
    decreases |s|
  {
    if |s| > 0 {
      var r := Reverse(s);
      assert r[1..] == Reverse(s[..|s| - 1]);
      LValOfReverse(s[..|s| - 1]);
    }
  }
}

=== FILE: experiment.dfy ===
/**
 The user-space timing experiment (experiment/experiment1.c): two 64-bit
 Fibonacci routines, the doubling loop (with and without the
 count-leading-zeros start) and the table-filling loop, as the
 experiment's main calls them.
 */
module Experiment {
  import opened Wrappers
  import opened Fibonacci

  /** The range of unsigned long long: all its arithmetic is modulo 2^64. */
  const Word: nat := 0x1_0000_0000_0000_0000

  /** 2^31: the bit the sign of a 32-bit int sits on. */
  const IntSign: nat := 0x8000_0000

  /** A C int. */
  newtype Int32 = x: int | -0x8000_0000 <= x < 0x8000_0000

  /** An integer result stored into an unsigned long long. */
  function Wrap(x: int): (r: nat)
    ensures r < Word
    ensures x - r == Word * (x / Word)
  {
    x % Word
  }

  // ---------------------------------------------------------------
  // Arithmetic modulo m

  /** Adding a multiple of m leaves the remainder alone. */
  lemma ModShift(x: int, m: int, q: int)
    requires m >= 1
    ensures (x + m * q) % m == x % m
  {
    assert x + m * q == m * (x / m + q) + x % m;
    DivUnique(x + m * q, m, x / m + q, x % m);
  }

  lemma ModAdd(x: int, y: int, m: int)
    requires m >= 1
    ensures (x % m + y % m) % m == (x + y) % m
  {
    assert x + y == (x % m + y % m) + m * (x / m + y / m);
    ModShift(x % m + y % m, m, x / m + y / m);
  }

  lemma ModSub(x: int, y: int, m: int)
    requires m >= 1
    ensures (x % m - y % m) % m == (x - y) % m
  {
    assert x - y == (x % m - y % m) + m * (x / m - y / m);
    ModShift(x % m - y % m, m, x / m - y / m);
  }

  lemma ModMul(x: int, y: int, m: int)
    requires m >= 1
    ensures (x % m * (y % m)) % m == (x * y) % m
  {
    var qx, rx, qy, ry := x / m, x % m, y / m, y % m;
    assert x == m * qx + rx && y == m * qy + ry;
    MulExpand(m, qx, rx, qy, ry);
    ModShift(rx * ry, m, qx * m * qy + qx * ry + rx * qy);
  }

  lemma MulExpand(m: int, qx: int, rx: int, qy: int, ry: int)
    ensures (m * qx + rx) * (m * qy + ry) == rx * ry + m * (qx * m * qy + qx * ry + rx * qy)
  {
  }

  /** Reducing an operand before storing changes nothing. */
  lemma WrapMul(x: int, y: int)
    ensures Wrap(Wrap(x) * Wrap(y)) == Wrap(x * y)
  {
    ModMul(x, y, Word);
  }

  lemma WrapAdd(x: int, y: int)
    ensures Wrap(Wrap(x) + Wrap(y)) == Wrap(x + y)
  {
    ModAdd(x, y, Word);
  }

  lemma WrapSub(x: int, y: int)
    ensures Wrap(Wrap(x) - Wrap(y)) == Wrap(x - y)
  {
    ModSub(x, y, Word);
  }

  lemma WrapIdentity(x: int)
    requires 0 <= x < Word
    ensures Wrap(x) == x
  {
    DivUnique(x, Word, 0, x);
  }

  // ---------------------------------------------------------------
  // One pass of double_fib

  /** The doubling update on two unsigned long longs. */
  function DoubleWords(a: nat, b: nat): (nat, nat)
  {
    (Wrap(a * Wrap(Wrap(b * 2) - a)), Wrap(Wrap(b * b) + Wrap(a * a)))
  }

  /** The step-by-one update. */
  function StepWords(a: nat, b: nat): (nat, nat)
  {
    (b, Wrap(a + b))
  }

  /** `(n & (1 << i)) > 0` for an int n. `1 << 31` overflows int; it is
      taken to be INT_MIN, as GCC produces it, and `n & INT_MIN` is then
      0 or negative, so the test fails at bit 31 whatever n is. Below
      bit 31 it reads the two's-complement bit of n. */
  predicate BitTest(n: Int32, i: nat)
  {
    i < 31 && Bit((n as int) % UintRange, i)
  }

  /** One iteration of the loop. */
  function Pass(n: Int32, i: nat, a: nat, b: nat): (nat, nat)
  {
    var d := DoubleWords(a, b);
    if BitTest(n, i) then StepWords(d.0, d.1) else d
  }

  /** The loop from bit i down to bit 0. */
  function Passes(n: Int32, i: int, a: nat, b: nat): (nat, nat)
    decreases i + 1
  {
    if i < 0 then (a, b)
    else
      var s := Pass(n, i, a, b);
      Passes(n, i - 1, s.0, s.1)
  }

  /** The bit the loop starts at: `31 - __builtin_clz(n)`, the highest set
      bit, when clz holds and bit 31 otherwise. `__builtin_clz(0)` is
      undefined, so there is no start for n == 0 with clz. Every set bit
      of the pattern the loop reads lies at or below the start. */
  function LoopTop(n: Int32, clz: bool): (r: Option<nat>)
    ensures r.None? <==> clz && n == 0
    ensures r.Some? ==> r.value <= 31 && LowBits(n) < Pow2(r.value + 1)
  {
    if !clz then
      TopBitBound(n);
      Some(31)
    else
      match Clz32(n as int)
      case None => None
      case Some(c) =>
        HighBitBound(n, c);
        Some(31 - c)
  }

  lemma TopBitBound(n: Int32)
    ensures LowBits(n) < Pow2(31 + 1)
  {
    Pow2ThirtyOne();
    Pow2Monotone(31, 32);
  }

  lemma HighBitBound(n: Int32, c: nat)
    requires Clz32(n as int) == Some(c)
    ensures c <= 31 && LowBits(n) < Pow2(31 - c + 1)
  {
    assert LowBits(n) <= (n as int) % UintRange;
    Pow2At(32 - c, 31 - c + 1);
  }

  /** `double_fib(n, clz)`. */
  function DoubleFib(n: Int32, clz: bool): (r: Option<nat>)
    ensures r.None? <==> clz && n == 0
  {
    match LoopTop(n, clz)
    case None => None
    case Some(i) => Some(Passes(n, i, 0, 1).0)
  }

  // ---------------------------------------------------------------
  // What double_fib computes

  /** The bit pattern the loop reads: bits 0 to 30 of n. */
  function LowBits(n: Int32): (e: nat)
    ensures e < IntSign
  {
    (n as int) % IntSign
  }

  lemma Pow2ThirtyOne()
    ensures Pow2(31) == IntSign
  {
    Pow2ThirtyTwo();
    assert Pow2(32) == 2 * Pow2(31);
  }

  lemma Regroup(x: int, p: int, q: int, r: int, t: int, h: int)
    requires x == p * q + r
    ensures x + p * t * h == p * (q + t * h) + r
  {
  }

  /** Adding an even number keeps the parity. */
  lemma ParityShift(q: int, s: int, h: int)
    ensures (q + 2 * s * h) % 2 == q % 2
  {
    assert 2 * s * h == 2 * (s * h);
    ModShift(q, 2, s * h);
  }

  /** Bits at position i + d and above do not change bit i. */
  lemma HighPartKeepsBit(x: nat, i: nat, d: nat, h: nat)
    requires d >= 1
    ensures Bit(x + Pow2(i + d) * h, i) == Bit(x, i)
  {
    var p, t := Pow2(i), Pow2(d);
    Pow2Add(i, d);
    var y := x + p * t * h;
    Regroup(x, p, x / p, x % p, t, h);
    DivUnique(y, p, x / p + t * h, x % p);
    ShiftRightDivides(y, i);
    ShiftRightDivides(x, i);
    assert t == 2 * Pow2(d - 1);
    ParityShift(x / p, Pow2(d - 1), h);
  }

  /** The bit test reads bit i of the low 31 bits of n, and bit 31 never. */
  lemma BitTestMeaning(n: Int32, i: nat)
    requires i <= 31
    ensures BitTest(n, i) == Bit(LowBits(n), i)
  {
    var w, e := (n as int) % UintRange, LowBits(n);
    Pow2ThirtyOne();
    if i == 31 {
      ShiftRightBound(e, 31, 0);
    } else {
      assert w == e + IntSign * (w / IntSign);
      Pow2At(i + (31 - i), 31);
      HighPartKeepsBit(e, i, 31 - i, w / IntSign);
    }
  }

  /** The first doubling word is x(2y - x) reduced, for any x and y the
      words reduce. */
  lemma DoubleWordsFirst(x: nat, y: nat, a: nat, b: nat)
    requires a == Wrap(x) && b == Wrap(y)
    ensures Wrap(a * Wrap(Wrap(b * 2) - a)) == Wrap(x * (2 * y - x))
  {
    WrapMul(y, 2);
    WrapIdentity(2);
    WrapSub(y * 2, x);
    WrapIdentity(a);
    WrapMul(x, y * 2 - x);
  }

  /** The second doubling word is x^2 + y^2 reduced. */
  lemma DoubleWordsSecond(x: nat, y: nat, a: nat, b: nat)
    requires a == Wrap(x) && b == Wrap(y)
    ensures Wrap(Wrap(b * b) + Wrap(a * a)) == Wrap(x * x + y * y)
  {
    WrapMul(y, y);
    WrapMul(x, x);
    WrapAdd(y * y, x * x);
  }

  lemma DoubleWordsFib(p: nat, a: nat, b: nat)
    requires a == Fib(p) % Word && b == Fib(p + 1) % Word
    ensures DoubleWords(a, b) == (Fib(2 * p) % Word, Fib(2 * p + 1) % Word)
  {
    FibDoubling(p);
    DoubleWordsFirst(Fib(p), Fib(p + 1), a, b);
    DoubleWordsSecond(Fib(p), Fib(p + 1), a, b);
  }

  lemma StepWordsFib(q: nat, a: nat, b: nat)
    requires a == Fib(q) % Word && b == Fib(q + 1) % Word
    ensures StepWords(a, b) == (Fib(q + 1) % Word, Fib(q + 2) % Word)
  {
    WrapAdd(Fib(q), Fib(q + 1));
  }

  /** One pass appends bit i to the prefix of the pattern read so far. */
  lemma PassFib(n: Int32, i: nat, a: nat, b: nat)
    requires i <= 31
    requires a == Fib(ShiftRight(LowBits(n), i + 1)) % Word
    requires b == Fib(ShiftRight(LowBits(n), i + 1) + 1) % Word
    ensures Pass(n, i, a, b)
         == (Fib(ShiftRight(LowBits(n), i)) % Word, Fib(ShiftRight(LowBits(n), i) + 1) % Word)
  {
    var e := LowBits(n);
    var p := ShiftRight(e, i + 1);
    ShiftRightStep(e, i);
    BitTestMeaning(n, i);
    DoubleWordsFib(p, a, b);
    var d := DoubleWords(a, b);
    if BitTest(n, i) {
      StepWordsFib(2 * p, d.0, d.1);
      FibAt(2 * p + 2, ShiftRight(e, i) + 1);
    } else {
      FibAt(2 * p, ShiftRight(e, i));
    }
  }

  lemma {:induction false} PassesFib(n: Int32, i: int, a: nat, b: nat)
    requires -1 <= i <= 31
    requires a == Fib(ShiftRight(LowBits(n), i + 1)) % Word
    requires b == Fib(ShiftRight(LowBits(n), i + 1) + 1) % Word
    ensures Passes(n, i, a, b) == (Fib(LowBits(n)) % Word, Fib(LowBits(n) + 1) % Word)
    decreases i + 1
  {
    if i >= 0 {
      PassFib(n, i, a, b);
      var s := Pass(n, i, a, b);
      PassesFib(n, i - 1, s.0, s.1);
    }
  }

  /** Starting the loop at any bit at or above the highest set bit of the
      pattern finds (a, b) == (F(0), F(1)). */
  lemma StartFib(n: Int32, i: nat)
    requires i <= 31 && LowBits(n) < Pow2(i + 1)
    ensures Passes(n, i, 0, 1) == (Fib(LowBits(n)) % Word, Fib(LowBits(n) + 1) % Word)
  {
    ShiftRightBound(LowBits(n), i + 1, 0);
    PassesFib(n, i, 0, 1);
  }

  /** double_fib returns F(n mod 2^31) modulo 2^64, in both modes: the
      bit-31 test never fires, so a negative n counts from its low 31 bits. */
  lemma DoubleFibIsFib(n: Int32, clz: bool)
    ensures DoubleFib(n, clz).Some? ==> DoubleFib(n, clz).value == Fib(LowBits(n)) % Word
  {
    if LoopTop(n, clz).Some? {
      StartFib(n, LoopTop(n, clz).value);
    }
  }

  /** Skipping the leading zero bits changes nothing. */
  lemma DoubleFibModesAgree(n: Int32)
    requires n != 0
    ensures DoubleFib(n, true) == DoubleFib(n, false)
  {
    DoubleFibIsFib(n, true);
    DoubleFibIsFib(n, false);
  }

  /** Up to F(93), the largest Fibonacci number below 2^64, the result is exact. */
  lemma DoubleFibExact(n: Int32, clz: bool)
    requires 0 <= n <= 93 && (n != 0 || !clz)
    ensures DoubleFib(n, clz) == Some(Fib(n as nat))
  {
    var k := n as nat;
    FibBelowWord(k);
    WrapIdentity(Fib(k));
    assert LowBits(n) == k;
    DoubleFibIsFib(n, clz);
  }

  /** F(93) is the last Fibonacci number an unsigned long long holds. */
  lemma FibBelowWord(n: nat)
    requires n <= 93
    ensures Fib(n) < Word
  {
    FibMonotone(n, 93);
    FibNinetyTwo();
  }

  /** From F(94) on, the result has wrapped around. */
  lemma DoubleFibWraps(clz: bool)
    ensures DoubleFib(94, clz).Some? && DoubleFib(94, clz).value != Fib(94)
  {
    DoubleFibIsFib(94, clz);
    FibNinetyTwo();
    assert Fib(94) == Fib(93) + Fib(92);
  }

  // ---------------------------------------------------------------
  // easy_fib

  /** The length of the series array. */
  const SeriesLength: nat := 92

  /** series[0..n] after the loop has run up to i == n. */
  function FillSeries(n: nat): (s: seq<nat>)
    requires n >= 1
    ensures |s| == n + 1
    ensures forall t :: 0 <= t < |s| ==> s[t] == Fib(t) % Word
  {
    if n == 1 then [0, 1]
    else
      var p := FillSeries(n - 1);
      SeriesNext(p, n);
      p + [Wrap(p[n - 1] + p[n - 2])]
  }

  /** One iteration of the loop: series[n] = series[n-1] + series[n-2]. */
  lemma SeriesNext(p: seq<nat>, n: nat)
    requires n >= 2 && |p| == n
    requires forall t :: 0 <= t < n ==> p[t] == Fib(t) % Word
    ensures forall t :: 0 <= t < n + 1 ==> (p + [Wrap(p[n - 1] + p[n - 2])])[t] == Fib(t) % Word
  {
    WrapAdd(Fib(n - 1), Fib(n - 2));
    var s := p + [Wrap(p[n - 1] + p[n - 2])];
    assert s[n] == Fib(n) % Word;
  }

  /** `easy_fib(n)` with the array sized as written: n == 92 writes
      series[92], one past its end, and a negative n reads before its
      start; neither has a result. */
  function EasyFibAsWritten(n: Int32): (r: Option<nat>)
    ensures r.Some? <==> 0 <= n < SeriesLength as Int32
    ensures r.Some? ==> r.value == Fib(n as nat)
  {
    if n < 0 || n >= SeriesLength as Int32 then None
    else
      FibBelowWord(n as nat);
      WrapIdentity(Fib(n as nat));
      Some(FillSeries(if n < 1 then 1 else n as nat)[n])
  }

  /** easy_fib with room for series[92], the last index main asks for. */
  function EasyFib(n: Int32): (r: Option<nat>)
    ensures r.Some? <==> 0 <= n <= SeriesLength as Int32
    ensures r.Some? ==> r.value == Fib(n as nat)
  {
    if n < 0 || n > SeriesLength as Int32 then None
    else
      FibBelowWord(n as nat);
      WrapIdentity(Fib(n as nat));
      Some(FillSeries(if n < 1 then 1 else n as nat)[n])
  }

  /** Every call main makes, i from 2 to 92: the two doubling modes and the
      corrected table agree with F(i); the table as written fails at 92 only. */
  lemma MainCalls(i: Int32)
    requires 2 <= i < 93
    ensures DoubleFib(i, false) == Some(Fib(i as nat))
    ensures DoubleFib(i, true) == Some(Fib(i as nat))
    ensures EasyFib(i) == Some(Fib(i as nat))
    ensures EasyFibAsWritten(i).None? <==> i == 92
    ensures i < 92 ==> EasyFibAsWritten(i) == DoubleFib(i, true)
  {
    DoubleFibExact(i, false);
    DoubleFibExact(i, true);
  }
}

=== FILE: fibdrv.dfy ===
/**
 The character device's arithmetic: fib_sequence (fibdrv.c:253-280), the
 fast-doubling loop over bignums, and fib_device_lseek (fibdrv.c:319-340),
 which clamps the file position that fib_read hands to fib_sequence.
 */
module FibDrv {
  import opened Wrappers
  import opened Digits
  import opened BigNums
  import opened Multiply
  import opened Fibonacci

  /** MAX_LENGTH: the largest file position, hence the largest k. */
  const MaxLength: nat := 101

  /** The largest ssize_t. */
  const SsizeMax: nat := 0x7FFF_FFFF_FFFF_FFFF

  /** The bound the comment on MAX_LENGTH gives, 92, is where a 64-bit
      signed result stops fitting; the bignum engine lifts that limit, and
      the constant is 101. */
  lemma SignedLimit()
    ensures Fib(92) <= SsizeMax < Fib(93)
    ensures MaxLength > 92
  {
    FibNinetyTwo();
  }

  // ---------------------------------------------------------------
  // Where the loop starts

  /** `31 - __builtin_clz(k)`, the first bit the loop reads, as written:
      nothing when k is 0. */
  function LoopStart(k: nat): (i: Option<int>)
    ensures i.None? <==> k % UintRange == 0
  {
    match Clz32(k)
    case None => None
    case Some(c) => Some(31 - c)
  }

  /** Below 2^32 the loop starts at the highest set bit of k. */
  lemma LoopStartIsHighBit(k: nat)
    requires 1 <= k < UintRange
    ensures LoopStart(k) == Some(HighBit(k))
  {
    assert k % UintRange == k;
  }

  /** For the positions the device allows, the loop start is missing
      exactly at 0. */
  lemma LoopStartInRange(k: nat)
    requires k <= MaxLength
    ensures LoopStart(k).None? <==> k == 0
  {
    assert k % UintRange == k;
  }

  // ---------------------------------------------------------------
  // fib_device_lseek

  const SeekSet: int := 0
  const SeekCur: int := 1
  const SeekEnd: int := 2

  /** loff_t is a signed 64-bit integer; the kernel builds with wrapping
      signed arithmetic. */
  function WrapOffset(x: int): int
  {
    (x + 0x8000_0000_0000_0000) % 0x1_0000_0000_0000_0000 - 0x8000_0000_0000_0000
  }

  /** The position the switch computes before clamping; 0 for an unknown
      `orig`. */
  function SeekTarget(pos: int, offset: int, orig: int): int
  {
    if orig == SeekSet then offset
    else if orig == SeekCur then WrapOffset(pos + offset)
    else if orig == SeekEnd then WrapOffset(MaxLength - offset)
    else 0
  }

  /** fib_device_lseek: the new position, also stored as the file's. */
  function FibDeviceLseek(pos: int, offset: int, orig: int): (r: int)
    ensures 0 <= r <= MaxLength
    ensures orig == SeekSet && 0 <= offset <= MaxLength ==> r == offset
    ensures orig !in {SeekSet, SeekCur, SeekEnd} ==> r == 0
  {
    var target := SeekTarget(pos, offset, orig);
    var clampedHigh := if target > MaxLength then MaxLength else target;
    if clampedHigh < 0 then 0 else clampedHigh
  }

  function Distance(x: int, y: int): nat
  {
    if x < y then y - x else x - y
  }

  /** The clamp picks the position of [0, MAX_LENGTH] nearest to the
      target. */
  lemma LseekNearest(pos: int, offset: int, orig: int, y: int)
    requires 0 <= y <= MaxLength
    ensures var t := SeekTarget(pos, offset, orig);
            Distance(FibDeviceLseek(pos, offset, orig), t) <= Distance(y, t)
  {
  }

  /** Seeking to where the file already is changes nothing. */
  lemma LseekIdempotent(pos: int, offset: int, orig: int)
    ensures var r := FibDeviceLseek(pos, offset, orig);
            FibDeviceLseek(r, 0, SeekCur) == r && FibDeviceLseek(pos, r, SeekSet) == r
  {
  }

  /** The offset 0 reaches the driver, and there the loop start is
      `31 - __builtin_clz(0)`, which is undefined. */
  lemma ZeroOffsetHasNoLoopStart(pos: int)
    ensures FibDeviceLseek(pos, 0, SeekSet) == 0
    ensures LoopStart(FibDeviceLseek(pos, 0, SeekSet)).None?
  {
  }

  // ---------------------------------------------------------------
  // fib_sequence

  /** The digits a loop value may have: the product of two such values
      still fits the 100-digit buffer. The methods below take the bound as
      a ghost exponent e <= Half, so that only this lemma meets 10^49 as a
      literal. */
  const Half: nat := 49

  /** Every value the loop for k <= MAX_LENGTH holds is below 10^Half, so
      no sum or product outgrows the buffer. */
  lemma DriverCapacity(n: nat, e: nat)
    requires n <= MaxLength + 1 && e == Half
    ensures Fib(n) < Pow10(e)
  {
    FibBelowPow2(n);
    Pow2Monotone(n, 3 * Half);
    Pow2BelowPow10(Half);
  }

  /** A normalized bignum below 10^e has at most e digits. */
  lemma CountBelow(n: BigNum, e: nat)
    requires Normalized(n) && 1 <= e && Val(n.digits) < Pow10(e)
    ensures n.count <= e
  {
    CountFromValue(n.digits, e);
  }

  /** multiply_bignum on non-negative canonical operands whose product
      is nonzero or which are single digits: then the source's result is
      already canonical. */
  method MultiplyCanonical(x: BigNum, y: BigNum) returns (z: BigNum)
    requires Canonical(x) && Canonical(y) && x.sign == Plus && y.sign == Plus
    requires x.count + y.count < MaxDigits
    requires (Val(x.digits) != 0 && Val(y.digits) != 0) || x.count + y.count == 2
    ensures Canonical(z) && z.sign == Plus && z.count <= x.count + y.count
    ensures Value(z) == Value(x) * Value(y)
  {
    if Val(x.digits) != 0 && Val(y.digits) != 0 {
      PositiveProduct(Val(x.digits), Val(y.digits));
    }
    z := MultiplyBigNum(x, y);
    MulResultNormalized(x, y, z);
  }

  lemma PositiveProduct(x: int, y: int)
    requires x >= 1 && y >= 1
    ensures x * y >= 1
  {
  }

  /** fibdrv.c:263-264: tmp2 = 2b - a, through tmp1 = 2b. With a <= b it
      is never negative and has at most one digit more than b. */
  method TwiceMinus(a: BigNum, b: BigNum, bigTwo: BigNum) returns (tmp2: BigNum)
    requires Canonical(a) && Canonical(b) && bigTwo == IntToBigNum(2)
    requires 0 <= Value(a) <= Value(b) && 1 <= Value(b)
    requires b.count + 1 < MaxDigits
    ensures Canonical(tmp2) && Value(tmp2) == 2 * Value(b) - Value(a) >= Value(b)
    ensures tmp2.count <= b.count + 1
  {
    assert bigTwo.digits == [2] && bigTwo.count == 1 by {
      assert DecimalDigits(2) == [2];
    }
    var tmp1 := MultiplyCanonical(b, bigTwo);
    MulSubst(Value(b), Value(bigTwo), 2);
    tmp2 := SubtractBigNum(tmp1, a).c;
    LongerWhenLarger(tmp1.digits, tmp2.digits);
  }

  /** fibdrv.c:263-265: t1 = a * (2b - a). */
  method DoubleEven(a: BigNum, b: BigNum, bigTwo: BigNum, ghost e: nat) returns (t1: BigNum)
    requires Canonical(a) && Canonical(b) && bigTwo == IntToBigNum(2)
    requires 1 <= e <= Half && 0 <= Value(a) <= Value(b) && 1 <= Value(b) < Pow10(e)
    requires Value(a) == 0 ==> Value(b) == 1
    ensures Canonical(t1) && Value(t1) == Value(a) * (2 * Value(b) - Value(a))
  {
    ghost var va, vb := Value(a), Value(b);
    CountBelow(a, e);
    CountBelow(b, e);
    var tmp2 := TwiceMinus(a, b, bigTwo);
    if va == 0 {
      CountBelow(a, 1);
      assert Pow10(1) == 10;
      CountBelow(tmp2, 1);
    }
    t1 := MultiplyCanonical(a, tmp2);
    MulSubst(va, Value(tmp2), 2 * vb - va);
  }

  /** fibdrv.c:267-269: t2 = a*a + b*b. */
  method DoubleOdd(a: BigNum, b: BigNum, ghost e: nat) returns (t2: BigNum)
    requires Canonical(a) && Canonical(b)
    requires 1 <= e <= Half && 0 <= Value(a) <= Value(b) && 1 <= Value(b) < Pow10(e)
    ensures Canonical(t2) && Value(t2) == Value(a) * Value(a) + Value(b) * Value(b)
  {
    CountBelow(a, e);
    CountBelow(b, e);
    if Value(a) == 0 {
      CountBelow(a, 1);
    }
    var tmp1 := MultiplyCanonical(a, a);
    var tmp2 := MultiplyCanonical(b, b);
    t2 := AddBigNum(tmp1, tmp2).c;
  }

  lemma FibNext(x: nat)
    ensures Fib(x + 2) == Fib(x + 1) + Fib(x)
  {
  }

  lemma MulSubst(x: int, y: int, y': int)
    requires y == y'
    ensures x * y == x * y'
  {
  }

  /** The doubling formulas on F(m), F(m+1) give F(2m), F(2m+1). */
  lemma DoubledValues(m: nat, va: int, vb: int, x: int, y: int)
    requires va == Fib(m) && vb == Fib(m + 1)
    requires x == va * (2 * vb - va) && y == va * va + vb * vb
    ensures x == Fib(2 * m) && y == Fib(2 * m + 1)
  {
    FibDoubling(m);
  }

  /** fibdrv.c:263-271 on Fibonacci numbers: (F(m), F(m+1)) becomes
      (F(2m), F(2m+1)), copied back into a and b. */
  method DoublePair(a: BigNum, b: BigNum, bigTwo: BigNum, ghost m: nat, ghost e: nat)
      returns (a': BigNum, b': BigNum)
    requires Canonical(a) && Canonical(b) && bigTwo == IntToBigNum(2)
    requires Value(a) == Fib(m) && Value(b) == Fib(m + 1)
    requires 1 <= e <= Half && Fib(2 * m + 1) < Pow10(e)
    ensures Canonical(a') && Canonical(b')
    ensures Value(a') == Fib(2 * m) && Value(b') == Fib(2 * m + 1)
  {
    FibPair(m);
    FibMonotone(m + 1, 2 * m + 1);
    var t1 := DoubleEven(a, b, bigTwo, e);
    var t2 := DoubleOdd(a, b, e);
    DoubledValues(m, Value(a), Value(b), Value(t1), Value(t2));
    a' := Copy(t1);
    b' := Copy(t2);
  }

  /** The set-bit branch (fibdrv.c:273-277): (a, b) becomes (b, a + b),
      that is (F(j), F(j+1)) becomes (F(j+1), F(j+2)). */
  method Advance(a: BigNum, b: BigNum, ghost j: nat, ghost e: nat) returns (a': BigNum, b': BigNum)
    requires Canonical(a) && Canonical(b)
    requires Value(a) == Fib(j) && Value(b) == Fib(j + 1)
    requires 1 <= e <= Half && Fib(j + 2) < Pow10(e)
    ensures Canonical(a') && Canonical(b')
    ensures Value(a') == Fib(j + 1) && Value(b') == Fib(j + 2)
  {
    FibNext(j);
    FibStep(j);
    CountBelow(a, e);
    CountBelow(b, e);
    var t1 := AddBigNum(a, b).c;
    a' := Copy(b);
    b' := Copy(t1);
  }

  /** One pass of the loop (fibdrv.c:260-278): double, then step once
      more when bit i of k is set. From the prefix m read so far to the
      prefix n = 2m + bit. */
  method DoublingStep(a: BigNum, b: BigNum, bigTwo: BigNum, ghost m: nat, bit: bool, ghost n: nat, ghost e: nat)
      returns (a': BigNum, b': BigNum)
    requires Canonical(a) && Canonical(b) && bigTwo == IntToBigNum(2)
    requires Value(a) == Fib(m) && Value(b) == Fib(m + 1)
    requires n == 2 * m + (if bit then 1 else 0)
    requires 1 <= e <= Half && Fib(n + 1) < Pow10(e)
    ensures Canonical(a') && Canonical(b')
    ensures Value(a') == Fib(n) && Value(b') == Fib(n + 1)
  {
    FibMonotone(2 * m + 1, n + 1);
    a', b' := DoublePair(a, b, bigTwo, m, e);
    if bit {
      FibAt(n + 1, 2 * m + 2);
      a', b' := Advance(a', b', 2 * m, e);
      FibAt(n, 2 * m + 1);
    } else {
      FibAt(n, 2 * m);
      FibAt(n + 1, 2 * m + 1);
    }
  }

  /** The pass at bit i reads prefix k >> i from k >> j, j = i + 1, and
      its values fit the buffers. */
  lemma LoopPass(k: nat, i: nat, j: nat, e: nat)
    requires k <= MaxLength && j == i + 1 && e == Half
    ensures ShiftRight(k, i) == 2 * ShiftRight(k, j) + (if Bit(k, i) then 1 else 0)
    ensures Fib(ShiftRight(k, i) + 1) < Pow10(e)
  {
    ShiftRightStep(k, i);
    PrefixFits(k, i, e);
  }

  lemma PrefixFits(k: nat, i: nat, e: nat)
    requires k <= MaxLength && e == Half
    ensures Fib(ShiftRight(k, i) + 1) < Pow10(e)
  {
    ShiftRightAtMost(k, i);
    DriverCapacity(ShiftRight(k, i) + 1, e);
  }

  /** The loop of fib_sequence (fibdrv.c:260-278), from bit `top` down to
      bit 0, starting from (F(0), F(1)). The counter j is the source's i
      plus one. */
  method DoublingLoop(k: nat, top: nat, bigTwo: BigNum) returns (a: BigNum)
    requires 1 <= k <= MaxLength && top == HighBit(k) && bigTwo == IntToBigNum(2)
    ensures Canonical(a) && Value(a) == Fib(k)
  {
    ShiftRightPastTop(k);
    a := IntToBigNum(0);
    var b := IntToBigNum(1);
    ghost var e: nat := Half;
    ghost var p: nat := 0;
    var j: nat := top + 1;
    while j > 0
      invariant p == ShiftRight(k, j)
      invariant Canonical(a) && Canonical(b)
      invariant Value(a) == Fib(p) && Value(b) == Fib(p + 1)
    {
      var i := j - 1;
      ghost var q := ShiftRight(k, i);
      LoopPass(k, i, j, e);
      a, b := DoublingStep(a, b, bigTwo, p, Bit(k, i), q, e);
      j, p := i, q;
    }
  }

  /** fib_sequence(k) for every k the device lets through: F(k) in
      decimal, without leading zeros. At k = 0 the loop is skipped, where
      the source would call `__builtin_clz(0)`. */
  method FibSequence(k: nat) returns (a: BigNum)
    requires k <= MaxLength
    ensures Canonical(a) && Value(a) == Fib(k)
    ensures a.digits == DecimalDigits(Fib(k))
  {
    var bigTwo := IntToBigNum(2);
    var start := LoopStart(k);
    LoopStartInRange(k);
    if start.None? {
      a := IntToBigNum(0);
      return;
    }
    LoopStartIsHighBit(k);
    a := DoublingLoop(k, start.value, bigTwo);
    CanonicalDigits(a, Fib(k));
  }
}

=== FILE: fibonacci.dfy ===
/**
 The Fibonacci numbers, powers of two and the bit arithmetic that the
 fast-doubling loops of fibdrv.c and experiment/experiment1.c rest on.
 */
module Fibonacci {
  import opened Wrappers
  import opened Digits

  function Fib(n: nat): nat
  {
    if n < 2 then n else Fib(n - 1) + Fib(n - 2)
  }

  function Pow2(n: nat): (p: nat)
    ensures p >= 1
  {
    if n == 0 then 1 else 2 * Pow2(n - 1)
  }

  /** Equal exponents, equal powers. */
  lemma Pow2At(x: nat, y: nat)
    requires x == y
    ensures Pow2(x) == Pow2(y)
  {
  }

  // ---------------------------------------------------------------
  // The doubling identities

  /** Equal indices, equal Fibonacci numbers: a congruence step the
      solver does not take unprompted through index arithmetic. */
  lemma FibAt(x: nat, y: nat)
    requires x == y
    ensures Fib(x) == Fib(y)
  {
  }

  /** The arithmetic of one FibAdd step: the formula at n - 1 and n - 2
      sums to the formula at n. */
  lemma AddFormulaArith(p: int, q: int, x: int, y: int, z: int, s1: int, s0: int, t: int, u: int)
    requires s1 == p * x + q * y && s0 == p * y + q * z
    requires t == s1 + s0 && u == x + y && x == y + z
    ensures t == p * u + q * x
  {
    assert p * u == p * x + p * y;
    assert q * x == q * y + q * z;
  }

  /** The addition formula F(m+n+1) = F(m+1)F(n+1) + F(m)F(n). */
  lemma {:induction false} FibAdd(m: nat, n: nat)
    ensures Fib(m + n + 1) == Fib(m + 1) * Fib(n + 1) + Fib(m) * Fib(n)
    decreases n
  {
    if n >= 2 {
      FibAdd(m, n - 1);
      FibAdd(m, n - 2);
      FibAddStep(m, n);
    } else {
      FibAddBase(m, n);
    }
  }

  /** The formula at n - 1 and n - 2 gives it at n. */
  lemma FibAddStep(m: nat, n: nat)
    requires n >= 2
    requires Fib(m + (n - 1) + 1) == Fib(m + 1) * Fib(n - 1 + 1) + Fib(m) * Fib(n - 1)
    requires Fib(m + (n - 2) + 1) == Fib(m + 1) * Fib(n - 2 + 1) + Fib(m) * Fib(n - 2)
    ensures Fib(m + n + 1) == Fib(m + 1) * Fib(n + 1) + Fib(m) * Fib(n)
  {
    FibAt(m + (n - 1) + 1, m + n);
    FibAt(m + (n - 2) + 1, m + n - 1);
    FibAt(n - 1 + 1, n);
    FibAt(n - 2 + 1, n - 1);
    assert Fib(m + n + 1) == Fib(m + n) + Fib(m + n - 1);
    assert Fib(n + 1) == Fib(n) + Fib(n - 1);
    AddFormulaArith(Fib(m + 1), Fib(m), Fib(n), Fib(n - 1), Fib(n - 2),
                    Fib(m + n), Fib(m + n - 1), Fib(m + n + 1), Fib(n + 1));
  }

  /** The formula at n = 0 and n = 1. */
  lemma FibAddBase(m: nat, n: nat)
    requires n < 2
    ensures Fib(m + n + 1) == Fib(m + 1) * Fib(n + 1) + Fib(m) * Fib(n)
  {
    if n == 1 {
      FibAt(m + n + 1, m + 2);
      FibAt(n + 1, 2);
      FibAt(n, 1);
      MulOne(Fib(m + 1), Fib(n + 1));
      MulOne(Fib(m), Fib(n));
    } else {
      FibAt(m + n + 1, m + 1);
      FibAt(n + 1, 1);
      FibAt(n, 0);
      MulOne(Fib(m + 1), Fib(n + 1));
      MulZero(Fib(m), Fib(n));
    }
  }

  /** F(2m) = F(m)(2F(m+1) - F(m)) and F(2m+1) = F(m)^2 + F(m+1)^2: the
      two steps of fast doubling. */
  lemma FibDoubling(m: nat)
    ensures Fib(2 * m) == Fib(m) * (2 * Fib(m + 1) - Fib(m))
    ensures Fib(2 * m + 1) == Fib(m) * Fib(m) + Fib(m + 1) * Fib(m + 1)
  {
    FibDoublingEven(m);
    FibDoublingOdd(m);
  }

  lemma FibDoublingOdd(m: nat)
    ensures Fib(2 * m + 1) == Fib(m) * Fib(m) + Fib(m + 1) * Fib(m + 1)
  {
    FibAdd(m, m);
    FibAt(m + m + 1, 2 * m + 1);
  }

  lemma FibDoublingEven(m: nat)
    ensures Fib(2 * m) == Fib(m) * (2 * Fib(m + 1) - Fib(m))
  {
    if m == 0 {
      FibAt(2 * m, 0);
      FibAt(m, 0);
      MulZero(2 * Fib(m + 1) - Fib(m), Fib(m));
    } else {
      FibAdd(m - 1, m);
      FibAt(m - 1 + m + 1, 2 * m);
      FibAt(m - 1 + 1, m);
      FibRec(m);
      DoublingArith(Fib(m - 1), Fib(m), Fib(m + 1));
    }
  }

  /** The recurrence, stated at t + 1 so that no index arithmetic is left
      to the solver. */
  lemma FibRec(t: nat)
    requires t >= 1
    ensures Fib(t + 1) == Fib(t) + Fib(t - 1)
  {
    FibAt(t + 1 - 1, t);
    FibAt(t + 1 - 2, t - 1);
  }

  lemma DoublingArith(f0: int, f1: int, f2: int)
    requires f2 == f1 + f0
    ensures f1 * f2 + f0 * f1 == f1 * (2 * f2 - f1)
  {
    assert f0 * f1 == f1 * f0;
    assert f1 * (2 * f2 - f1) == f1 * f2 + f1 * (f2 - f1);
  }

  lemma FibStep(n: nat)
    ensures Fib(n) <= Fib(n + 1)
    ensures n >= 1 ==> Fib(n) >= 1
  {
    if n >= 2 {
      FibStep(n - 1);
    }
  }

  /** The facts about a consecutive pair (F(m), F(m+1)) that the driver
      needs: ordered, the second positive, and (0, 1) when the first is 0. */
  lemma FibPair(m: nat)
    ensures Fib(m) <= Fib(m + 1) && 1 <= Fib(m + 1)
    ensures Fib(m) == 0 ==> Fib(m + 1) == 1
  {
    FibStep(m);
    FibStep(m + 1);
    if m == 0 {
      FibAt(m + 1, 1);
    }
  }

  lemma {:induction false} FibMonotone(m: nat, n: nat)
    requires m <= n
    ensures Fib(m) <= Fib(n)
    decreases n - m
  {
    if m < n {
      FibStep(m);
      FibMonotone(m + 1, n);
    }
  }

  /** The doubling loop's intermediates stay non-negative: 2F(m+1) - F(m)
      is at least F(m+1), so no bignum in the loop is ever negative. */
  lemma DoublingIntermediates(m: nat)
    ensures 2 * Fib(m + 1) - Fib(m) >= Fib(m + 1)
  {
    FibStep(m);
  }

  /** One doubling step on known values: F(2m) and F(2m+1) from F(m) and F(m+1). */
  lemma DoublingValues(m: nat, x: nat, y: nat)
    requires Fib(m) == x && Fib(m + 1) == y
    ensures Fib(2 * m) == x * (2 * y - x)
    ensures Fib(2 * m + 1) == x * x + y * y
  {
    FibDoubling(m);
  }

  lemma FibTwentyThree()
    ensures Fib(23) == 28657 && Fib(24) == 46368
  {
    assert Fib(11) == 89 && Fib(12) == 144;
    DoublingValues(11, 89, 144);
    assert Fib(24) == Fib(23) + Fib(22);
  }

  lemma FibFortySix()
    ensures Fib(46) == 1836311903 && Fib(47) == 2971215073
  {
    FibTwentyThree();
    DoublingValues(23, 28657, 46368);
  }

  /** F(92) and F(93), by two doubling steps from F(23) and F(24). */
  lemma FibNinetyTwo()
    ensures Fib(92) == 7540113804746346429
    ensures Fib(93) == 12200160415121876738
  {
    FibFortySix();
    DoublingValues(46, 1836311903, 2971215073);
  }

  lemma {:induction false} FibBelowPow2(n: nat)
    ensures Fib(n) < Pow2(n)
  {
    if n >= 2 {
      FibBelowPow2(n - 1);
      FibBelowPow2(n - 2);
    }
  }

  // ---------------------------------------------------------------
  // Powers of two

  lemma {:induction false} Pow2Add(m: nat, n: nat)
    ensures Pow2(m + n) == Pow2(m) * Pow2(n)
    decreases m
  {
    if m > 0 {
      Pow2Add(m - 1, n);
      assert Pow2(m + n) == 2 * Pow2(m - 1 + n);
    }
  }

  lemma {:induction false} Pow2Monotone(m: nat, n: nat)
    requires m <= n
    ensures Pow2(m) <= Pow2(n)
    decreases n - m
  {
    if m < n {
      Pow2Monotone(m + 1, n);
    }
  }

  /** The exponents compare as the powers do. */
  lemma Pow2Order(m: nat, n: nat)
    ensures Pow2(m) < Pow2(n) ==> m < n
  {
    if n <= m {
      Pow2Monotone(n, m);
    }
  }

  lemma Pow2ThirtyTwo()
    ensures Pow2(32) == 0x1_0000_0000
  {
    assert Pow2(8) == 256;
    Pow2Add(8, 8);
    Pow2Add(16, 16);
  }

  /** 2^(3n) <= 10^n: a digit holds more than three bits. */
  lemma {:induction false} Pow2BelowPow10(n: nat)
    ensures Pow2(3 * n) <= Pow10(n)
  {
    if n > 0 {
      Pow2BelowPow10(n - 1);
      assert Pow2(3 * n) == 2 * Pow2(3 * n - 1);
      assert Pow2(3 * n - 1) == 2 * Pow2(3 * n - 2);
      assert Pow2(3 * n - 2) == 2 * Pow2(3 * (n - 1));
    }
  }

  // ---------------------------------------------------------------
  // Bits

  /** `k >> i`. */
  function ShiftRight(k: nat, i: nat): nat
  {
    if i == 0 then k else ShiftRight(k, i - 1) / 2
  }

  /** `(k & (1 << i)) > 0`: bit i of k is set. */
  predicate Bit(k: nat, i: nat)
  {
    ShiftRight(k, i) % 2 == 1
  }

  /** Reading one more bit: k >> i is twice k >> (i+1), plus bit i. */
  lemma ShiftRightStep(k: nat, i: nat)
    ensures ShiftRight(k, i) == 2 * ShiftRight(k, i + 1) + (if Bit(k, i) then 1 else 0)
  {
  }

  lemma DivDiv(k: nat, p: nat)
    requires p >= 1
    ensures k / p / 2 == k / (2 * p)
  {
    var q, r := k / p, k % p;
    assert k == p * q + r;
    var q2, r2 := q / 2, q % 2;
    assert q == 2 * q2 + r2;
    assert k == (2 * p) * q2 + (p * r2 + r);
    assert 0 <= p * r2 + r < 2 * p;
    DivUnique(k, 2 * p, q2, p * r2 + r);
  }

  /** A quotient and a remainder are determined by any split of k into
      d * q + r with 0 <= r < d. */
  lemma DivUnique(k: int, d: int, q: int, r: int)
    requires d >= 1 && k == d * q + r && 0 <= r < d
    ensures k / d == q && k % d == r
  {
    var q', r' := k / d, k % d;
    assert d * q' + r' == d * q + r;
    assert d * (q' - q) == r - r';
    SmallMultiple(d, q' - q);
  }

  /** The only multiple of d strictly between -d and d is zero. */
  lemma SmallMultiple(d: int, x: int)
    ensures d >= 1 && -d < d * x < d ==> x == 0
  {
    if d >= 1 && x >= 1 {
      assert d * x == d + d * (x - 1);
    } else if d >= 1 && x <= -1 {
      assert d * x == -d + d * (x + 1);
    }
  }

  /** The shift agrees with division by a power of two. */
  lemma {:induction false} ShiftRightDivides(k: nat, i: nat)
    ensures ShiftRight(k, i) == k / Pow2(i)
  {
    if i > 0 {
      ShiftRightDivides(k, i - 1);
      DivDiv(k, Pow2(i - 1));
    }
  }

  lemma {:induction false} ShiftRightAtMost(k: nat, i: nat)
    ensures ShiftRight(k, i) <= k
  {
    if i > 0 {
      ShiftRightAtMost(k, i - 1);
    }
  }

  /** Shifting a number below 2^(i+n) right by i leaves less than 2^n. */
  lemma {:induction false} ShiftRightBound(k: nat, i: nat, n: nat)
    requires k < Pow2(i + n)
    ensures ShiftRight(k, i) < Pow2(n)
    decreases i
  {
    if i > 0 {
      ShiftRightBound(k, i - 1, n + 1);
    }
  }

  /** The index of the highest set bit: `31 - __builtin_clz(k)` for k
      below 2^32. */
  function HighBit(k: nat): (h: nat)
    requires k >= 1
    ensures Pow2(h) <= k < Pow2(h + 1)
  {
    if k == 1 then 0 else 1 + HighBit(k / 2)
  }

  /** Above the highest set bit every shift is zero. */
  lemma ShiftRightPastTop(k: nat)
    requires k >= 1
    ensures ShiftRight(k, HighBit(k) + 1) == 0
  {
    ShiftRightBound(k, HighBit(k) + 1, 0);
  }

  /** The range of unsigned int. */
  const UintRange: nat := 0x1_0000_0000

  /** `__builtin_clz` of the unsigned int that k converts to: the number
      of zero bits above the highest set bit, or nothing for 0, where the
      builtin is undefined. */
  function Clz32(k: int): (r: Option<nat>)
    ensures r.None? <==> k % UintRange == 0
    ensures r.Some? ==> r.value <= 31
    ensures r.Some? ==> Pow2(31 - r.value) <= k % UintRange < Pow2(32 - r.value)
  {
    var w := k % UintRange;
    if w == 0 then None
    else
      Pow2ThirtyTwo();
      Pow2Order(HighBit(w), 32);
      Some(31 - HighBit(w))
  }
}

=== FILE: multiply.dfy ===
/**
 multiply_bignum (fibdrv.c:213-244): schoolbook multiplication over the
 operands' digits reversed to least-significant-first order, accumulated
 in a buffer `res` of MAXDIGITS digits, one row per digit of b.

 The loops are kept as loops. The result is what the source leaves in c:
 the low `k` digits of `res`, where `k` is the position just past the
 last digit the final row wrote.
 */
module Multiply {
  import opened Digits
  import opened BigNums

  /** What multiply_bignum leaves in c: the product of the magnitudes in
      la + lb digits when it reaches 10^(la+lb-1), in la + lb - 1 digits
      otherwise, with the product of the signs. Nothing strips leading
      zeros, so a zero product keeps la + lb - 1 of them. */
  predicate MulResult(a: BigNum, b: BigNum, c: BigNum)
  {
    && a.count >= 1 && b.count >= 1
    && c.sign == Times(a.sign, b.sign)
    && c.count == |c.digits|
    && Val(c.digits) == Val(a.digits) * Val(b.digits)
    && c.count == (if Val(a.digits) * Val(b.digits) >= Pow10(a.count + b.count - 1)
                   then a.count + b.count
                   else a.count + b.count - 1)
  }

  /** Value of `num1[i..]`, zero once i runs past the end. */
  function Tail(s: seq<Digit>, i: nat): nat
  {
    if i < |s| then LVal(s[i..]) else 0
  }

  lemma TailStep(s: seq<Digit>, i: nat)
    requires i < |s|
    ensures Tail(s, i) == s[i] + 10 * Tail(s, i + 1)
  {
    assert s[i..][1..] == s[i + 1..];
  }

  lemma RowArith(l: int, l2: int, p: int, p2: int, r: int, s: int, n: int, d: int,
                 of: int, of2: int, rest: int, rest1: int)
    requires l2 + r * p == l + (s % 10) * p
    requires s == r + n * d + of
    requires of2 == s / 10
    requires rest == n + 10 * rest1
    requires p2 == 10 * p
    ensures l2 + p2 * (of2 + d * rest1) == l + p * (of + d * rest)
  {
    assert s == 10 * (s / 10) + s % 10;
    assert p2 * (of2 + d * rest1) == p * (10 * of2) + p * (10 * d * rest1);
    assert p * (of + d * rest) == p * of + p * (d * n) + p * (10 * d * rest1);
  }

  lemma MulLess(x: nat, y: nat, p: nat, q: nat)
    requires x < p && y < q
    ensures x * y < p * q
  {
    assert x * y <= x * q;
    assert x * q < p * q;
  }

  lemma MulAtLeast(x: nat, y: nat, p: nat, q: nat)
    requires x >= p && y >= q
    ensures x * y >= p * q
  {
    assert x * y >= p * y;
    assert p * y >= p * q;
  }

  lemma DigitProduct(n: Digit, d: Digit)
    ensures 0 <= n * d <= 81
  {
    assert n * d <= 9 * d <= 81;
  }

  lemma MulRegroup(d: int, p: int, x: int)
    ensures d * p * x == p * (0 + d * x)
  {
  }

  lemma ProductBound(x: nat, y: nat, m: nat, n: nat)
    requires x < Pow10(m) && y < Pow10(n)
    ensures x * y < Pow10(m + n)
  {
    Pow10Add(m, n);
    MulLess(x, y, Pow10(m), Pow10(n));
  }

  lemma ProductLower(x: nat, y: nat, m: nat, n: nat)
    requires x >= Pow10(m) && y >= Pow10(n)
    ensures x * y >= Pow10(m + n)
  {
    Pow10Add(m, n);
    MulAtLeast(x, y, Pow10(m), Pow10(n));
  }

  /** The row a digit of b adds: x * d * 10^j onto the running total. */
  lemma RowTotal(num2: seq<Digit>, j: nat, x: nat)
    requires j < |num2|
    ensures x * LVal(num2[..j + 1]) == x * LVal(num2[..j]) + num2[j] * Pow10(j) * x
  {
    assert num2[..j + 1] == num2[..j] + [num2[j]];
    LValSnoc(num2[..j], num2[j]);
    RowTotalArith(x, LVal(num2[..j + 1]), LVal(num2[..j]), num2[j], Pow10(j));
  }

  lemma RowTotalArith(x: int, l1: int, l: int, d: int, p: int)
    requires l1 == l + d * p
    ensures x * l1 == x * l + d * p * x
  {
    assert x * (d * p) == d * p * x;
  }

  lemma SignedMul(pa: bool, pb: bool, va: int, vb: int)
    ensures (if pa then va else -va) * (if pb then vb else -vb)
            == (if pa == pb then va * vb else -(va * vb))
  {
    if !pa { assert -va * (if pb then vb else -vb) == -(va * (if pb then vb else -vb)); }
    if !pb { assert va * -vb == -(va * vb); }
  }

  /** After j rows the running total has at most la + j digits. */
  lemma PartialProductBound(x: nat, num2: seq<Digit>, j: nat, la: nat)
    requires x < Pow10(la) && j <= |num2|
    ensures x * LVal(num2[..j]) < Pow10(la + j)
  {
    LValBound(num2[..j]);
    ProductBound(x, LVal(num2[..j]), la, j);
  }

  /** The signed product from the product of magnitudes. */
  lemma SignedProduct(a: BigNum, b: BigNum, c: BigNum)
    requires c.sign == Times(a.sign, b.sign)
    requires Val(c.digits) == Val(a.digits) * Val(b.digits)
    ensures Value(c) == Value(a) * Value(b)
  {
    SignedMul(a.sign == Plus, b.sign == Plus, Val(a.digits), Val(b.digits));
  }

  /** The digit sum of one inner step: the digit already in `res`, the
      partial product (while num1 lasts) and the carry. */
  function StepSum(res: seq<Digit>, k: nat, num1: seq<Digit>, i: nat, d: Digit, of: int): int
    requires k < |res|
  {
    res[k] + (if i < |num1| then num1[i] * d else 0) + of
  }

  /** One inner step keeps the running total: writing the low digit of the
      sum at k and carrying the rest moves the pending part up a place. */
  lemma RowStep(res: seq<Digit>, k: nat, num1: seq<Digit>, i: nat, d: Digit, of: int, total: int)
    requires k < |res| && 0 <= of <= 9
    requires LVal(res) + Pow10(k) * (of + d * Tail(num1, i)) == total
    ensures 0 <= StepSum(res, k, num1, i, d, of) / 10 <= 9
    ensures var s := StepSum(res, k, num1, i, d, of);
            LVal(res[k := s % 10]) + Pow10(k + 1) * (s / 10 + d * Tail(num1, i + 1)) == total
  {
    var s := StepSum(res, k, num1, i, d, of);
    var n := if i < |num1| then num1[i] else 0;
    if i < |num1| {
      TailStep(num1, i);
    }
    assert Tail(num1, i) == n + 10 * Tail(num1, i + 1);
    DigitProduct(n, d);
    assert s == res[k] + n * d + of;
    LValUpdate(res, k, s % 10);
    var l, l2 := LVal(res), LVal(res[k := s % 10]);
    RowArith(l, l2, Pow10(k), Pow10(k + 1), res[k], s,
             n, d, of, s / 10, Tail(num1, i), Tail(num1, i + 1));
  }

  /** One pass of the outer loop of multiply_bignum: digit `d` of b at
      position `j` times num1, added into `res` from position j on. The
      row ends once num1 is used up and the carry is zero; `k` is the
      position after the last digit written. The carry is zero on entry
      to every row, so it is local here. */
  method AddRow(num1: seq<Digit>, d: Digit, j: nat, res0: seq<Digit>) returns (res: seq<Digit>, k: nat)
    requires |res0| == MaxDigits && 1 <= |num1| && j + |num1| < MaxDigits
    requires forall t :: j + |num1| <= t < |res0| ==> res0[t] == 0
    ensures |res| == MaxDigits
    ensures LVal(res) == LVal(res0) + d * Pow10(j) * LVal(num1)
    ensures k == j + |num1| || k == j + |num1| + 1
    ensures forall t :: k <= t < |res| ==> res[t] == 0
    ensures k == j + |num1| + 1 <==> LVal(res) >= Pow10(j + |num1|)
  {
    var la := |num1|;
    ghost var total := LVal(res0) + d * Pow10(j) * LVal(num1);
    assert num1[0..] == num1;
    MulRegroup(d, Pow10(j), LVal(num1));
    res := res0;
    var of := 0;
    var i := 0;
    k := j;
    while i < la || of != 0
      invariant 0 <= i <= la + 1 && k == j + i
      invariant 0 <= of <= 9
      invariant |res| == MaxDigits
      invariant LVal(res) + Pow10(k) * (of + d * Tail(num1, i)) == total
      invariant forall t :: Max(k, j + la) <= t < |res| ==> res[t] == 0
      invariant i == la + 1 ==> of == 0
      invariant k == j + la + 1 ==> res[j + la] != 0
      decreases la + 1 - i
    {
      var s;
      if i < la {
        s := res[k] + num1[i] * d + of;
      } else {
        s := res[k] + of;
      }
      RowStep(res, k, num1, i, d, of, total);
      res := res[k := s % 10];
      of := s / 10;
      k := k + 1;
      i := i + 1;
    }
    if k == j + la + 1 {
      LValDigitLower(res, j + la);
    } else {
      LValDropZeros(res, j + la);
    }
  }

  /** The two loops of multiply_bignum on the reversed digit buffers:
      after them `res` holds the product and `k` is one past its last
      digit. */
  method MultiplyRows(num1: seq<Digit>, num2: seq<Digit>) returns (res: seq<Digit>, k: nat)
    requires 1 <= |num1| && 1 <= |num2| && |num1| + |num2| < MaxDigits
    ensures |res| == MaxDigits
    ensures LVal(res) == LVal(num1) * LVal(num2)
    ensures k == |num1| + |num2| || k == |num1| + |num2| - 1
    ensures forall t :: k <= t < |res| ==> res[t] == 0
    ensures k == |num1| + |num2| <==> LVal(res) >= Pow10(|num1| + |num2| - 1)
  {
    var la, lb := |num1|, |num2|;
    ghost var x := LVal(num1);
    LValBound(num1);
    res := seq(MaxDigits, _ => 0);
    LValZero(res);
    assert num2[..0] == [];
    MulZero(x, LVal(num2[..0]));
    k := 0;
    var j := 0;
    while j < lb
      invariant 0 <= j <= lb
      invariant |res| == MaxDigits
      invariant LVal(res) == x * LVal(num2[..j])
      invariant j > 0 ==> k == la + j || k == la + j - 1
      invariant j > 0 ==> forall t :: k <= t < |res| ==> res[t] == 0
      invariant j > 0 ==> (k == la + j <==> LVal(res) >= Pow10(la + j - 1))
    {
      RowTotal(num2, j, x);
      PartialProductBound(x, num2, j, la);
      LValZeroTail(res, la + j);
      res, k := AddRow(num1, num2[j], j, res);
      Pow10At(la + (j + 1) - 1, j + |num1|);
      j := j + 1;
    }
    assert num2[..lb] == num2;
  }

  /** multiply_bignum as written. */
  method MultiplyBigNum(a: BigNum, b: BigNum) returns (c: BigNum)
    requires WellFormed(a) && WellFormed(b)
    requires a.count + b.count < MaxDigits
    ensures MulResult(a, b, c)
    ensures Value(c) == Value(a) * Value(b)
  {
    var num1 := Reverse(a.digits);
    var num2 := Reverse(b.digits);
    LValOfReverse(a.digits);
    LValOfReverse(b.digits);
    var res, k := MultiplyRows(num1, num2);
    var digits := Reverse(res[..k]);
    LValDropZeros(res, k);
    ValOfReverse(res[..k]);
    c := BigNum(digits, Times(a.sign, b.sign), k);
    SignedProduct(a, b, c);
  }

  /** When the product is nonzero (or both operands are single digits)
      the result has no leading zero; a zero product of longer operands
      keeps la + lb - 1 zeros. */
  lemma MulResultNormalized(a: BigNum, b: BigNum, c: BigNum)
    requires Normalized(a) && Normalized(b) && a.count + b.count < MaxDigits
    requires MulResult(a, b, c)
    ensures Normalized(c) <==> Val(a.digits) * Val(b.digits) != 0 || a.count + b.count == 2
  {
    if Val(a.digits) * Val(b.digits) != 0 {
      NonzeroProductNormalized(a, b, c);
    } else if a.count + b.count == 2 {
      SingleDigitsNormalized(a, b, c);
    } else {
      ZeroProductLeadingZero(a, b, c);
    }
  }

  lemma NonzeroProductNormalized(a: BigNum, b: BigNum, c: BigNum)
    requires Normalized(a) && Normalized(b) && a.count + b.count < MaxDigits
    requires MulResult(a, b, c) && Val(a.digits) * Val(b.digits) != 0
    ensures Normalized(c)
  {
    var la, lb := a.count, b.count;
    var va, vb := Val(a.digits), Val(b.digits);
    if va * vb >= Pow10(la + lb - 1) {
      Pow10At(c.count - 1, la + lb - 1);
    } else {
      NonzeroFactors(va, vb);
      NonzeroLower(a.digits);
      NonzeroLower(b.digits);
      ProductLower(va, vb, la - 1, lb - 1);
      Pow10At(c.count - 1, (la - 1) + (lb - 1));
    }
    NoLeadingZeroFromValue(c.digits);
  }

  lemma SingleDigitsNormalized(a: BigNum, b: BigNum, c: BigNum)
    requires MulResult(a, b, c) && a.count + b.count == 2
    ensures Normalized(c)
  {
    if c.count == 2 {
      NoLeadingZeroFromValue(c.digits);
    }
  }

  lemma ZeroProductLeadingZero(a: BigNum, b: BigNum, c: BigNum)
    requires MulResult(a, b, c) && a.count + b.count > 2
    requires Val(a.digits) * Val(b.digits) == 0
    ensures !Normalized(c)
  {
    assert c.count == a.count + b.count - 1 >= 2;
    ValZero(c.digits);
    assert c.digits[0] == 0;
  }

  /** A nonzero product has nonzero factors. */
  lemma NonzeroFactors(x: int, y: int)
    ensures x * y != 0 ==> x != 0 && y != 0
  {
    if x == 0 {
      MulZero(y, x);
    } else if y == 0 {
      MulZero(x, y);
    }
  }

  /** 0 * 12 gives "00": the input that shows the leading zeros. */
  lemma ZeroTimesTwelve(c: BigNum)
    requires MulResult(BigNum([0], Plus, 1), BigNum([1, 2], Plus, 2), c)
    ensures c.digits == [0, 0] && c.count == 2
    ensures !Normalized(c)
  {
    assert Val([0]) == 0;
    assert Pow10(2) == 100;
    ValZero(c.digits);
  }

  /** 0 * -5 gives a "0" with sign MINUS: normalized, of value 0, yet
      compare_bignum ranks it below the canonical zero. */
  lemma ZeroTimesMinusFive(c: BigNum)
    requires MulResult(BigNum([0], Plus, 1), BigNum([5], Minus, 1), c)
    ensures c == BigNum([0], Minus, 1)
    ensures Normalized(c) && Value(c) == Value(Zero())
    ensures CompareBigNum(c, Zero()) == PLUS
  {
    assert Val([0]) == 0;
    assert Pow10(1) == 10;
    ValZero(c.digits);
  }

  /** multiply_bignum with the leading zeros stripped from its result. It
      gives what the source gives whenever that is already normalized. */
  method MultiplyNormalized(a: BigNum, b: BigNum) returns (c: BigNum)
    requires WellFormed(a) && WellFormed(b)
    requires a.count + b.count < MaxDigits
    ensures Normalized(c) && c.sign == Times(a.sign, b.sign)
    ensures Val(c.digits) == Val(a.digits) * Val(b.digits)
    ensures Value(c) == Value(a) * Value(b)
    ensures (Normalized(a) && Normalized(b) &&
             (Val(a.digits) * Val(b.digits) != 0 || a.count + b.count == 2)) ==> MulResult(a, b, c)
  {
    var raw := MultiplyBigNum(a, b);
    var ds := StripLeadingZeros(raw.digits);
    c := BigNum(ds, raw.sign, |ds|);
    SignedProduct(a, b, c);
    if Normalized(a) && Normalized(b) && (Val(a.digits) * Val(b.digits) != 0 || a.count + b.count == 2) {
      MulResultNormalized(a, b, raw);
    }
  }
}

=== FILE: wrappers.dfy ===
/** The optional result used where the source has undefined behaviour. */
module Wrappers {

  datatype Option<+T> = None | Some(value: T)
}
